=== FILE: README.md ===
# sparzr handler and default listener in Dafny

sparzr extracts schema.org annotations from HTML. A tokenizer walks the page
and calls a SAX content handler, `InternalSaxHandler`. The handler recognises
two annotation styles:

- **JSON-LD**: the text of a `<script type="application/ld+json">` element is
  buffered. When the script closes, the text goes to a JSON parser. Every
  `@type` key in the result outside an `@type` value is reported as an item
  type (the walk does not look inside an `@type` value), and then the whole
  JSON value is reported as one item. A block that does not parse is dropped
  without a trace. The buffer is shared with microdata: if a property is still
  waiting for its text when a block opens, the text gathered so far is handed
  to the parser in front of the block's own text, and the property ends up
  with whatever follows the block.
- **Microdata**: an element with both `itemscope` and `itemtype` opens an item.
  Its short type name is the last segment of `itemtype.split("/")`. An element
  with `itemprop` adds a value to the innermost open item. The value comes from
  an attribute chosen by the tag name, or from the element's trimmed text. A
  nested item is attached to its parent under its own `itemprop`. An item
  is reported when it closes and no other item is open. A scope nested inside
  an item without `itemprop` still counts as an item type, but it is neither
  attached nor reported.

Listeners receive `startParsing`, `foundItemtype`, `foundItem` and
`endParsing(totalItemtypes)`. `DefaultListener` keeps the reported items in
order, the count from `endParsing`, and a finished flag.

## How the model is built

- `SaxHandler` holds the handler's fields as one immutable `State`. It has one
  pure function per callback (`OnStartElement`, `OnEndElement`,
  `OnCharacters`, plus start and end of document). Exceptions become an
  `Outcome` that is either `Continue(state)` or `Thrown(state, error)`. The
  errors are `EmptyStack` (`Stack.pop`), `NoSuchElement`
  (`LinkedList.removeLast`) and `IndexOutOfBounds` (an empty `split` result).
  `Run` folds a sequence of callbacks and stops at the first exception.
- Everything the handler tells its listeners goes into a trace of
  notifications. Every registered listener is called with the same
  notifications in the same order, so one trace describes them all.
- Jackson's mutable `ObjectNode`s become an arena of `Item`s. A nested item is
  a `Ref` to its arena index, so attaching it to the parent and filling it
  later (which Java does through object aliasing) is explicit.
  `Microdata.ToJson` expands an item to the JSON tree the listener receives.
- The JSON text parser (`ObjectMapper.readTree`) is a function parameter
  `JsonParser = string -> Option<Json>`. `None` stands for
  `JsonProcessingException`.
- `JavaText` models the parts of `java.lang.String` the handler uses:
  `equalsIgnoreCase`, `trim`, and `split` with a one-character separator.
  `JavaInt` models the 32-bit wrap-around of the `int` counter.
- `TypeWalker` gives the JSON-LD type walk (`parseJson`) both as a method with
  loops, as in the source, and as a recursive reference function.
- `HandlerInvariants` states the invariant the handler keeps on every input.
  It also proves that for properly nested tags the stacks stay aligned with
  the open tags, so only an all-slash `itemtype` can throw.
- `DocumentTree` describes documents as trees whose callbacks are nested by
  construction. It proves what one subtree does to the state.
- `JsonLdBlocks` covers script blocks. `ParseSession` combines the handler and
  `DefaultListener` and restates the parser tests as lemmas.
- `DefaultListener` is a fold over the trace. It is characterised against
  reference functions that read the trace directly.

## Model

| member | source | states |
|---|---|---|
| `SaxHandler.OnStartElement` | core/src/main/java/com/lafaspot/sparzr/InternalSaxHandler.java:151-236 | Throws only for a scope whose `itemtype` is all slashes, and then changes nothing. Otherwise it pushes exactly one tag type: `JsonLd` exactly for script tags, `Microdata` exactly for scope tags. A scope creates, pushes, counts and announces one new item, and attaches it to the parent's list under `itemprop` when an item is open. A leaf property either appends the value its tag rule gives or waits for the text. Items other than the current one are untouched. |
| `SaxHandler.PopTagType` | core/src/main/java/com/lafaspot/sparzr/InternalSaxHandler.java:289 | Popping the tag-type stack throws `EmptyStack` exactly when the stack is empty. Otherwise it removes just the top entry. |
| `SaxHandler.EndJsonLd` | core/src/main/java/com/lafaspot/sparzr/InternalSaxHandler.java:244-267 | Closing a capturing script always stops capture and clears the buffer. Text that does not parse adds no notification and no count. Parsed text reports each of its types, then the value itself, and advances the count by the number of types as a Java `int`. The open items, the arena and any pending property are kept. The only failure is the final `tagTypes.pop()` on an empty stack: it throws `EmptyStack` exactly then, and the tag stack stays empty. |
| `SaxHandler.FlushPending` | core/src/main/java/com/lafaspot/sparzr/InternalSaxHandler.java:275-287 | With a pending property and an open item, the trimmed buffer is appended under that property of the current item, and the property and buffer are cleared. Otherwise nothing changes. Neither case touches the stacks, trace or counter. |
| `SaxHandler.OnEndElement` | core/src/main/java/com/lafaspot/sparzr/InternalSaxHandler.java:242-298 | A capturing script end is the JSON-LD close. Any other end tag consumes a pending property and pops one tag type. The items end up exactly as storing the pending text leaves them, even when the call throws. Popping `Microdata` pops exactly one item. A `foundItem` is sent exactly when the popped item was the last one open. It carries that item's JSON, with the pending text already stored. With nothing pending, the pending name and the shared buffer are untouched. It throws exactly on an empty tag stack (`EmptyStack`) or on `Microdata` with no open item (`NoSuchElement`, after the pop). A throw sends no notification and keeps the open items. |
| `SaxHandler.OnCharacters` | core/src/main/java/com/lafaspot/sparzr/InternalSaxHandler.java:305-309 | Text is appended to the buffer exactly when a JSON-LD block is capturing or a property is pending. Nothing else changes. |
| `SaxHandler.ReportAll` | core/src/main/java/com/lafaspot/sparzr/InternalSaxHandler.java:349-354 | Calling `foundItemtype` once per name appends one notification per name, in order. The counter advances by the number of names with 32-bit wrap-around. Nothing else changes. |
| `JavaInt.Inc32` | core/src/main/java/com/lafaspot/sparzr/InternalSaxHandler.java:350 | `totalItemtypes++` stays in `int` range. It is `x + 1` below `INT_MAX` and wraps to `INT_MIN` at `INT_MAX`. |
| `JavaInt.Inc32OfWrap` | core/src/main/java/com/lafaspot/sparzr/InternalSaxHandler.java:350 | Incrementing the wrapped count `n` gives the wrapped count `n + 1`, so after `n` increments from 0 the counter is `n` modulo 2^32 as an `int`. |
| `JavaText.AsciiCharEqualsIgnoreCase` | core/src/main/java/com/lafaspot/sparzr/InternalSaxHandler.java:152-155 | Against an ASCII character, the per-character case-insensitive test holds exactly for its variants, in both directions. A letter's variants are its lower and upper forms, plus U+0131 and U+0130 for `i`, U+017F for `s` and U+212A for `k`. Any other ASCII character matches only itself. |
| `JavaText.EqualsAsciiConstant` | core/src/main/java/com/lafaspot/sparzr/InternalSaxHandler.java:152-155 | Comparing an ASCII constant such as `script`, the JSON-LD media type or `@type` with `equalsIgnoreCase` succeeds exactly when the lengths agree and every character is one of the constant's variants. |
| `JavaText.TrimCharacterized` | core/src/main/java/com/lafaspot/sparzr/InternalSaxHandler.java:276 | `trim` returns the slice that drops only characters at or below U+0020 on both sides and neither starts nor ends with one. Every such slice equals the result. |
| `JavaText.TrimIdempotent` | core/src/main/java/com/lafaspot/sparzr/InternalSaxHandler.java:276 | Trimming a trimmed string changes nothing. |
| `JavaText.JoinSegments` | core/src/main/java/com/lafaspot/sparzr/InternalSaxHandler.java:170 | Splitting at a separator loses nothing: joining the segments with the separator gives the input back. |
| `JavaText.ShortTypeNameIsLastSegment` | core/src/main/java/com/lafaspot/sparzr/InternalSaxHandler.java:170-171 | The split-based short name equals an independent description: strip trailing slashes, then take what follows the last slash. An empty `itemtype` gives the empty name. |
| `JavaText.ShortTypeNameShape` | core/src/main/java/com/lafaspot/sparzr/InternalSaxHandler.java:170-171 | The short name never contains a slash and is empty only for an empty `itemtype`. The index exception happens exactly for a non-empty all-slash `itemtype`. |
| `Microdata.NewItem` | core/src/main/java/com/lafaspot/sparzr/InternalSaxHandler.java:172-175 | A new item has exactly one property, `"type"`, whose list holds just the short type name. |
| `Microdata.AppendValue` | core/src/main/java/com/lafaspot/sparzr/InternalSaxHandler.java:179-190 | Adding a value under a name gives that name's list the old values followed by the new one. Every other name's list is unchanged. The first property keeps its name and its existing values. |
| `Microdata.AppendValueKeys` | core/src/main/java/com/lafaspot/sparzr/InternalSaxHandler.java:186-188 | The property order is kept. A name that was missing is added at the end, as an insertion-ordered `ObjectNode.set` does. |
| `Microdata.AppendValueVals` | core/src/main/java/com/lafaspot/sparzr/InternalSaxHandler.java:180-188 | The item's values, as a multiset, gain exactly the new value. Nothing is lost or duplicated. |
| `Microdata.ResolveLeaf` | core/src/main/java/com/lafaspot/sparzr/InternalSaxHandler.java:200-230 | A property tag waits for its text exactly when no tag rule names an attribute and there is no `content`. A tag rule always gives an inline value, possibly null. A non-null inline value is the rule's attribute, or `content` for other tags. |
| `Microdata.ToJsonShape` | core/src/main/java/com/lafaspot/sparzr/InternalSaxHandler.java:172-175 | A well-formed item becomes an object with one entry per property, in property order. The first entry is the `"type"` array, headed by the type name. |
| `TypeWalker.ParseJson` | core/src/main/java/com/lafaspot/sparzr/InternalSaxHandler.java:316-341 | The looping walk reports exactly the reference pre-order type names. An `@type` key, compared ignoring case, yields its text value (null unless the value is text) and is not searched further. Other entries and array elements are searched in order. Scalars, null and missing nodes yield nothing. |
| `TypeWalker.TypeNamesAreReachedTypes` | core/src/main/java/com/lafaspot/sparzr/InternalSaxHandler.java:316-341 | Independently of the walk's recursion: a name is reported exactly when it is the text of an `@type` entry reachable by a path through array elements and non-`@type` entries. |
| `TypeWalker.ObjectEntryNames` | core/src/main/java/com/lafaspot/sparzr/InternalSaxHandler.java:319-332 | An object's names are its first entry's contribution followed by the rest's. An `@type` entry contributes exactly its own text value. |
| `TypeWalker.ElemTypeNamesAppend` | core/src/main/java/com/lafaspot/sparzr/InternalSaxHandler.java:333-339 | The names of an array that is a concatenation are the parts' names, in order. |
| `TypeWalker.FieldTypeNamesAppend` | core/src/main/java/com/lafaspot/sparzr/InternalSaxHandler.java:321-332 | The names of an object whose entries are a concatenation are the parts' names, in order. |
| `HandlerInvariants.InitValid` | core/src/main/java/com/lafaspot/sparzr/InternalSaxHandler.java:115-125 | The constructed handler satisfies the invariant. Every item is well formed, the open items are in the arena, a pending property implies an open item, the buffer is empty unless something wants text, and the counter equals the wrapped number of `foundItemtype` notifications. |
| `HandlerInvariants.StepValid` | core/src/main/java/com/lafaspot/sparzr/InternalSaxHandler.java:131-309 | Every callback, including one that throws, keeps the invariant. |
| `HandlerInvariants.RunValid` | core/src/main/java/com/lafaspot/sparzr/InternalSaxHandler.java:131-309 | Any callback sequence, nested or not, keeps the invariant. So `endParsing` always reports the wrapped number of item types announced. |
| `HandlerInvariants.RunExtendsTrace` | core/src/main/java/com/lafaspot/sparzr/InternalSaxHandler.java:131-309 | Notifications, once sent, are never taken back: the trace only grows. |
| `HandlerInvariants.RunAligned` | core/src/main/java/com/lafaspot/sparzr/InternalSaxHandler.java:151-298 | For callbacks whose tags nest properly, the run throws exactly when some tag opens a scope with an all-slash `itemtype`, and the error is the index exception. Otherwise the tag-type stack matches the open tags, with `JsonLd` exactly at script tags, and there is one open item per `Microdata` entry. |
| `HandlerInvariants.DocumentRun` | core/src/main/java/com/lafaspot/sparzr/InternalSaxHandler.java:131-145 | A document is `startParsing`, then the body, then, if the body did not throw, `endParsing` with the current counter. |
| `HandlerInvariants.ReusedHandler` | core/src/main/java/com/lafaspot/sparzr/Parser.java:60-68 | `Parser` builds its handler once and every `parse` call reuses it, and nothing resets the counter. So a second document's notifications follow the first's, and its `endParsing` counts the item types of both documents. |
| `HandlerInvariants.DocumentBalanced` | core/src/main/java/com/lafaspot/sparzr/InternalSaxHandler.java:131-298 | A properly nested document fails exactly when some scope's `itemtype` is all slashes. Otherwise it ends with both stacks empty, no capture and no pending text. The trace starts with `startParsing` and ends with `endParsing` carrying the wrapped count of item types before it. |
| `DocumentTree.ForestWellNested` | core/src/main/java/com/lafaspot/sparzr/Parser.java:60-68 | The callbacks of any element tree close every tag in the reverse order of opening. |
| `DocumentTree.RunNode` | core/src/main/java/com/lafaspot/sparzr/InternalSaxHandler.java:151-298 | A subtree without an all-slash `itemtype` runs without exception. Both stacks are as before, and the trace and arena only grow. |
| `DocumentTree.SubtreeReportsNoItem` | core/src/main/java/com/lafaspot/sparzr/InternalSaxHandler.java:242-298 | A subtree in which no JSON-LD block ends keeps the capture flag. Started inside an open item, it reports no item, since every item it opens closes inside the outer one. Ordinary scripts may occur in it when nothing is being captured. |
| `DocumentTree.TopLevelItemReportedOnce` | core/src/main/java/com/lafaspot/sparzr/InternalSaxHandler.java:288-297 | A scope element outside every item, in which no JSON-LD block ends, produces exactly one `foundItem`, at its close. Ordinary inline scripts inside it are allowed. Its `foundItemtype` comes first. The reported JSON is the item created for it, whose `"type"` list starts with the short type name. |
| `DocumentTree.ForestDocument` | core/src/main/java/com/lafaspot/sparzr/InternalSaxHandler.java:169-171 | A document given as a forest completes exactly when no scope's `itemtype` is all slashes, and then ends with both stacks empty. |
| `DocumentTree.UnannotatedDocument` | core/src/main/java/com/lafaspot/sparzr/InternalSaxHandler.java:131-145 | A nested document with no JSON-LD script and no scope sends only `startParsing` and `endParsing(0)`. Other scripts and `itemprop`s outside every item are allowed. |
| `DocumentTree.RunCountsScopes` | core/src/main/java/com/lafaspot/sparzr/InternalSaxHandler.java:169-177 | With no JSON-LD script, each start tag that opens a scope announces exactly one item type, nested or not. Nothing else announces one. |
| `DocumentTree.PlainEvents` | core/src/main/java/com/lafaspot/sparzr/InternalSaxHandler.java:151-171 | A tree without script tags and without an all-slash `itemtype` gives callbacks with neither. It has one scope start per scope element. |
| `JsonLdBlocks.CaptureText` | core/src/main/java/com/lafaspot/sparzr/InternalSaxHandler.java:305-309 | While capturing, the buffer collects the text chunks in order, however the tokenizer splits them. |
| `JsonLdBlocks.BlockRun` | core/src/main/java/com/lafaspot/sparzr/InternalSaxHandler.java:244-267 | A block opened while nothing is captured hands the parser the text already in the buffer followed by its own text, and always leaves the buffer empty. If that text does not parse, nothing else changes. If it parses as `j`, `j`'s type notifications and then `j` are added, and the counter advances by the number of types. |
| `JsonLdBlocks.QuietBlockRun` | core/src/main/java/com/lafaspot/sparzr/InternalSaxHandler.java:244-267 | With no capture, no pending property and an empty buffer, a block is judged on its own text alone. If the text does not parse, the state is unchanged. |
| `JsonLdBlocks.PendingTextSpoilsBlock` | core/src/main/java/com/lafaspot/sparzr/InternalSaxHandler.java:275-286 | The shared buffer, on a concrete case. The block `{}` parses on its own, but opened inside a span whose `itemprop` is waiting for text after `Bob `, it is dropped, and the property gets the empty string. A malformed block just before it absorbs `Bob `, and then `{}` is reported. |
| `JsonLdBlocks.MalformedBlockIsolated` | core/src/main/java/com/lafaspot/sparzr/InternalSaxHandler.java:249-257 | From a quiet state, a malformed block before or after a good one leaves the run exactly as the good block alone. |
| `DefaultListener.ObserveCharacterized` | core/src/main/java/com/lafaspot/sparzr/DefaultListener.java:33-47 | After a trace, the listener's items are exactly the `foundItem` payloads in order, one per notification. It is finished exactly when an `endParsing` arrived. Its total is the count of the last `endParsing`, or 0 before any. |
| `DefaultListener.QuietNotifications` | core/src/main/java/com/lafaspot/sparzr/DefaultListener.java:28-42 | `startParsing` and `foundItemtype` change nothing the listener exposes. |
| `DefaultListener.EndParsingSets` | core/src/main/java/com/lafaspot/sparzr/DefaultListener.java:33-37 | `endParsing(n)` sets the total to `n` and the finished flag, whatever came before, and keeps the items. |
| `DefaultListener.FoundItemAppends` | core/src/main/java/com/lafaspot/sparzr/DefaultListener.java:45-47 | `foundItem(x)` appends `x` after the items already held and changes nothing else. |
| `ParseSession.SessionResult` | core/src/main/java/com/lafaspot/sparzr/DefaultListener.java:94-106 | After a nested document without an all-slash `itemtype`, the listener is finished. `totalItemtypes()` is the wrapped number of item types announced. `getItems()` lists the reported items in order. |
| `ParseSession.EmptyDocument` | core/src/test/java/com/lafaspot/sparzr/ParserTest.java:243-251 | An empty page leaves an empty item array and a total of 0. |
| `ParseSession.ListenerScenario` | core/src/test/java/com/lafaspot/sparzr/DefaultListenerTest.java:20-28 | Start, item `"blah"`, one item type, `endParsing(2)`: total 2 and items `["blah"]`. |
| `ParseSession.JsonLdDocument` | core/src/main/java/com/lafaspot/sparzr/InternalSaxHandler.java:244-267 | A page holding one JSON-LD block that parses as `j` yields the items `[j]`. The total is the number of names the type walk finds in `j`, as a Java `int`. The walk does not look inside the value of an `@type` key. |
| `ParseSession.ReservationTypes` | core/src/test/java/com/lafaspot/sparzr/ParserTest.java:263-269 | The reservation example contains four types, in document order: FoodEstablishmentReservation, Person, FoodEstablishment, PostalAddress. |
| `ParseSession.ReservationDocument` | core/src/test/java/com/lafaspot/sparzr/ParserTest.java:262-279 | A page whose block parses to the reservation yields that one item and a total of 4. |
| `ParseSession.ReservationMicrodata` | core/src/test/java/com/lafaspot/sparzr/ParserTest.java:113-120 | The microdata reservation page nests Person, FoodEstablishment and PostalAddress scopes in a FoodEstablishmentReservation scope. It yields exactly one item and a total of 4. |
| `ParseSession.MalformedSiblingIgnored` | core/src/test/java/com/lafaspot/sparzr/ParserTest.java:292-341 | A malformed block next to a good one, first or second, leaves the listener exactly as the good block alone. |

## Left out

- The HTML tokenizer (TagSoup, driven from `Parser.parse`) is not part of this model. Its output is a sequence of `Event`s. The theorems about whole documents assume properly nested tags, which the tokenizer's repair of broken HTML is relied on to provide. The tree form in `DocumentTree` gives such sequences by construction.
- JSON text syntax and `ObjectMapper.readTree` are a parameter of every run. So is what that parser returns for empty or blank text (Jackson versions differ between a missing node and Java `null`; `null` has no counterpart here). `JsonLdDocument` and `ReservationDocument` take the parser's result for the block text as a hypothesis.
- The `IOException` branch of the JSON-LD close (`InternalSaxHandler.java:258-259`) is left out. It cannot arise when reading from a string.
- Logging in `DefaultListener` and the `uri` argument of the callbacks are left out. Neither affects any result.
- Listener registration, `Parser(DefaultHandler)` with a custom handler and `getListeners` are not modelled. Every registered listener sees the one trace.
- `characters(ch, start, length)` is modelled as the string `ch[start..start+length]`. Array bounds are the tokenizer's responsibility.
- JavaText.CharEqualsIgnoreCase: case folding covers ASCII letters and the four non-ASCII characters whose Java case mapping lands on an ASCII letter. That is exact whenever one side is an ASCII constant, which is the only way the handler compares (`EqualsAsciiConstant` states the match set). Other Unicode case pairs are not modelled.
- Tests that parse HTML text or compare `toString()` output are not restated, apart from the microdata reservation page of `testXml`, which `ReservationMicrodata` gives as a tree: `testJson`, `testImdbMicrodata`, the array examples, and the disabled list-flattening test. They need the tokenizer or JSON serialisation, which are not modelled. The null-input test checks a `NullPointerException` thrown by `new StringReader(null)` in `Parser.parse` (Parser.java:66), before the tokenizer or the handler runs.
- `Format.RDFA` is never produced: the handler has no RDFa branch, so the model's `Format` has no RDFa case.
- JsonLdBlocks.MalformedBlockIsolated: proved only from a quiet state, with no pending property. The handler shares one buffer between a pending property and a JSON-LD block, so there a malformed sibling can change what the good block's parser sees. `PendingTextSpoilsBlock` shows such a case.
- `ParseDocument` runs a document on a freshly built handler, which is the first `parse` call of a `Parser`. Later calls are described by `ReusedHandler`.
- Thread safety is not modelled. The handler and listener are used from one thread.

=== FILE: default_listener.dfy ===
/**
  `DefaultListener`: collects every reported item in order, remembers the
  count `endParsing` delivers and whether it has arrived. Its state after a
  parse is a fold of its callbacks over the notification trace.
 */
module DefaultListener {
  import opened JsonValue
  import opened Listener

  /** The listener's fields: the item array, the reported total and the finished flag. */
  datatype Aggregate = Aggregate(items: seq<Json>, total: int, finished: bool)

  /** A freshly constructed listener. */
  const Fresh: Aggregate := Aggregate([], 0, false)

  /** One listener callback. */
  function OnNotify(a: Aggregate, n: Notification): Aggregate {
    match n
    case StartParsing => a
    case EndParsing(count) => a.(total := count, finished := true)
    case FoundItemtype(_, _) => a
    case FoundItem(item) => a.(items := a.items + [item])
  }

  /** A fresh listener after receiving `trace`, in order. */
  function Observe(trace: seq<Notification>): Aggregate {
    if |trace| == 0 then Fresh else OnNotify(Observe(trace[..|trace| - 1]), trace[|trace| - 1])
  }

  // ---------------------------------------------------------------------
  // Reference descriptions, read off the trace directly
  // ---------------------------------------------------------------------

  /** The payloads of the `foundItem` notifications, in trace order. */
  function ItemsOf(trace: seq<Notification>): seq<Json> {
    if |trace| == 0 then []
    else (if trace[0].FoundItem? then [trace[0].item] else []) + ItemsOf(trace[1..])
  }

  predicate HasEnd(trace: seq<Notification>) {
    exists i :: 0 <= i < |trace| && trace[i].EndParsing?
  }

  /** `i` is the last `endParsing` in the trace. */
  predicate LastEnd(trace: seq<Notification>, i: int) {
    0 <= i < |trace| && trace[i].EndParsing?
    && forall k :: i < k < |trace| ==> !trace[k].EndParsing?
  }

  lemma {:induction false} ItemsOfAppend(a: seq<Notification>, b: seq<Notification>)
    ensures ItemsOf(a + b) == ItemsOf(a) + ItemsOf(b)
    decreases |a|
  {
    if |a| == 0 {
      assert a + b == b;
    } else {
      assert (a + b)[0] == a[0];
      assert (a + b)[1..] == a[1..] + b;
      ItemsOfAppend(a[1..], b);
    }
  }

  /**
    The listener's view of a trace: the item array lists exactly the reported
    items in the order they were reported (one entry per `foundItem`), the
    flag is set exactly when `endParsing` has arrived, and the total is the
    count of the last `endParsing`, or 0 before any.
   */
  lemma {:induction false} ObserveCharacterized(trace: seq<Notification>)
    ensures Observe(trace).items == ItemsOf(trace)
    ensures |Observe(trace).items| == ItemCount(trace)
    ensures Observe(trace).finished <==> HasEnd(trace)
    ensures !HasEnd(trace) ==> Observe(trace).total == 0
    ensures forall i :: LastEnd(trace, i) ==> Observe(trace).total == trace[i].numItemtypes
    decreases |trace|
  {
    if |trace| > 0 {
      var init := trace[..|trace| - 1];
      var last := trace[|trace| - 1];
      ObserveCharacterized(init);
      assert trace == init + [last];
      ItemsOfAppend(init, [last]);
      assert ItemsOf([last]) == (if last.FoundItem? then [last.item] else []) + ItemsOf([]);
      assert HasEnd(trace) <==> HasEnd(init) || last.EndParsing? by {
        if HasEnd(init) {
          var i :| 0 <= i < |init| && init[i].EndParsing?;
          assert trace[i] == init[i];
        }
        if HasEnd(trace) && !last.EndParsing? {
          var i :| 0 <= i < |trace| && trace[i].EndParsing?;
          assert init[i] == trace[i];
        }
      }
      forall i | LastEnd(trace, i)
        ensures Observe(trace).total == trace[i].numItemtypes
      {
        if i < |trace| - 1 {
          assert LastEnd(init, i);
        }
      }
    }
  }

  /** Start and item-type notifications touch neither the item array nor the total. */
  lemma QuietNotifications(trace: seq<Notification>, n: Notification)
    requires n.StartParsing? || n.FoundItemtype?
    ensures Observe(trace + [n]) == Observe(trace)
  {
    assert (trace + [n])[..|trace|] == trace;
  }

  /** `endParsing(n)` sets the total to exactly `n` and marks parsing finished, whatever came before. */
  lemma EndParsingSets(trace: seq<Notification>, n: int)
    ensures Observe(trace + [EndParsing(n)]).total == n
    ensures Observe(trace + [EndParsing(n)]).finished
    ensures Observe(trace + [EndParsing(n)]).items == Observe(trace).items
  {
    assert (trace + [EndParsing(n)])[..|trace|] == trace;
  }

  /** `foundItem(x)` appends `x` after the items already held. */
  lemma FoundItemAppends(trace: seq<Notification>, x: Json)
    ensures Observe(trace + [FoundItem(x)]).items == Observe(trace).items + [x]
    ensures Observe(trace + [FoundItem(x)]).total == Observe(trace).total
    ensures Observe(trace + [FoundItem(x)]).finished == Observe(trace).finished
  {
    assert (trace + [FoundItem(x)])[..|trace|] == trace;
  }
}

=== FILE: document_tree.dfy ===
/**
  Documents as trees. The tokenizer repairs the markup and reports it as a
  properly nested sequence of callbacks; a tree of elements and text flattened
  in document order produces exactly such sequences. Running the handler over
  one subtree restores both stacks, and a top-level scope is reported as one
  finished item.
 */
module DocumentTree {
  import opened Wrappers
  import opened JavaText
  import opened JavaInt
  import opened JsonValue
  import opened Listener
  import opened Microdata
  import opened SaxHandler
  import opened HandlerInvariants

  /** An element with its attributes and children, or a run of text. */
  datatype Node =
    | Element(localName: string, qName: string, attrs: map<string, string>, children: seq<Node>)
    | Text(text: string)

  /** The callbacks the tokenizer delivers for one subtree. */
  function Flatten(n: Node): seq<Event>
    decreases n, 1
  {
    match n
    case Text(t) => [Characters(t)]
    case Element(l, q, a, cs) => [StartElement(l, q, a)] + Children(n, |cs|) + [EndElement(l, q)]
  }

  /** The callbacks for the first `k` children of `parent`. */
  function Children(parent: Node, k: nat): seq<Event>
    requires parent.Element? && k <= |parent.children|
    decreases parent, 0, k
  {
    if k == 0 then []
    else
      assert parent.children[k - 1] in parent.children;
      Children(parent, k - 1) + Flatten(parent.children[k - 1])
  }

  /** The callbacks for a sequence of top-level nodes. */
  function Forest(nodes: seq<Node>): seq<Event> {
    if |nodes| == 0 then [] else Forest(nodes[..|nodes| - 1]) + Flatten(nodes[|nodes| - 1])
  }

  /** No tag in `events` opens a scope with an all-slash `itemtype`. */
  predicate NoBadTypes(events: seq<Event>) {
    |events| == 0 || (!BadItemtype(events[0]) && NoBadTypes(events[1..]))
  }

  /** `NoBadTypes` says, event by event, that no tag has a bad `itemtype`. */
  lemma {:induction false} NoBadTypesAt(events: seq<Event>)
    ensures NoBadTypes(events) <==> forall i :: 0 <= i < |events| ==> !BadItemtype(events[i])
    decreases |events|
  {
    if |events| > 0 {
      NoBadTypesAt(events[1..]);
      assert forall i :: 1 <= i < |events| ==> events[1..][i - 1] == events[i];
    }
  }

  lemma {:induction false} NoBadTypesAppend(a: seq<Event>, b: seq<Event>)
    ensures NoBadTypes(a + b) <==> NoBadTypes(a) && NoBadTypes(b)
    decreases |a|
  {
    if |a| == 0 {
      assert a + b == b;
    } else {
      assert (a + b)[0] == a[0];
      assert (a + b)[1..] == a[1..] + b;
      NoBadTypesAppend(a[1..], b);
    }
  }

  /** No tag in `events`, opening or closing, is a script tag. */
  predicate NoScripts(events: seq<Event>) {
    forall i :: 0 <= i < |events| ==>
      (events[i].StartElement? ==> !IsScript(events[i].localName, events[i].qName))
      && (events[i].EndElement? ==> !IsScript(events[i].localName, events[i].qName))
  }

  /** The start of a script whose type is JSON-LD. */
  predicate JsonLdStart(e: Event) {
    e.StartElement? && IsScript(e.localName, e.qName) && IsJsonLdType(e.attrs)
  }

  /** Callbacks with no JSON-LD script among them. */
  predicate NoJsonLd(events: seq<Event>) {
    forall i :: 0 <= i < |events| ==> !JsonLdStart(events[i])
  }

  /** A callback that cannot end a JSON-LD block: not a JSON-LD script start, and no script tag at all while one is being captured. */
  predicate EndsNoBlock(capturing: bool, e: Event) {
    && !JsonLdStart(e)
    && (capturing && e.StartElement? ==> !IsScript(e.localName, e.qName))
    && (capturing && e.EndElement? ==> !IsScript(e.localName, e.qName))
  }

  /**
    No JSON-LD block ends within `events` run with capture `capturing`: none
    starts there, and a block already being captured meets no script tag.
    Ordinary scripts are allowed when nothing is being captured.
   */
  predicate NoBlockEnds(capturing: bool, events: seq<Event>) {
    |events| == 0 || (EndsNoBlock(capturing, events[0]) && NoBlockEnds(capturing, events[1..]))
  }

  lemma {:induction false} NoBlockEndsAppend(capturing: bool, a: seq<Event>, b: seq<Event>)
    ensures NoBlockEnds(capturing, a + b) <==> NoBlockEnds(capturing, a) && NoBlockEnds(capturing, b)
    decreases |a|
  {
    if |a| == 0 {
      assert a + b == b;
    } else {
      assert (a + b)[0] == a[0];
      assert (a + b)[1..] == a[1..] + b;
      NoBlockEndsAppend(capturing, a[1..], b);
    }
  }

  /** Without script tags no JSON-LD block can end, whatever the capture flag. */
  lemma {:induction false} ScriptFreeNoBlockEnds(capturing: bool, events: seq<Event>)
    requires NoScripts(events)
    ensures NoBlockEnds(capturing, events)
    decreases |events|
  {
    if |events| > 0 {
      assert events[0] == events[0];
      assert NoScripts(events[1..]) by {
        forall i | 0 <= i < |events[1..]|
          ensures events[1..][i] == events[i + 1]
        {
        }
      }
      ScriptFreeNoBlockEnds(capturing, events[1..]);
    }
  }

  lemma EventsSplit(a: seq<Event>, b: seq<Event>)
    ensures NoBadTypes(a + b) <==> NoBadTypes(a) && NoBadTypes(b)
    ensures NoScripts(a + b) <==> NoScripts(a) && NoScripts(b)
  {
    NoBadTypesAppend(a, b);
    assert forall i :: 0 <= i < |a| ==> (a + b)[i] == a[i];
    assert forall i :: 0 <= i < |b| ==> (a + b)[|a| + i] == b[i];
  }

  // ---------------------------------------------------------------------
  // Trees are well nested
  // ---------------------------------------------------------------------

  lemma {:induction false} NestAppend(open: seq<Tag>, a: seq<Event>, b: seq<Event>)
    ensures Nest(open, a).None? ==> Nest(open, a + b).None?
    ensures Nest(open, a).Some? ==> Nest(open, a + b) == Nest(Nest(open, a).value, b)
    decreases |a|
  {
    if |a| == 0 {
      assert a + b == b;
    } else {
      assert (a + b)[0] == a[0];
      assert (a + b)[1..] == a[1..] + b;
      match NestStep(open, a[0])
      case None =>
      case Some(next) => NestAppend(next, a[1..], b);
    }
  }

  lemma {:induction false} NestNode(open: seq<Tag>, n: Node)
    ensures Nest(open, Flatten(n)) == Some(open)
    decreases n, 1
  {
    match n
    case Text(t) =>
    case Element(l, q, a, cs) =>
      var inner := open + [Tag(l, q)];
      assert Flatten(n) == [StartElement(l, q, a)] + (Children(n, |cs|) + [EndElement(l, q)]);
      NestAppend(open, [StartElement(l, q, a)], Children(n, |cs|) + [EndElement(l, q)]);
      NestAppend(inner, Children(n, |cs|), [EndElement(l, q)]);
      NestChildren(inner, n, |cs|);
      assert inner[..|inner| - 1] == open;
  }

  lemma {:induction false} NestChildren(open: seq<Tag>, parent: Node, k: nat)
    requires parent.Element? && k <= |parent.children|
    ensures Nest(open, Children(parent, k)) == Some(open)
    decreases parent, 0, k
  {
    if k > 0 {
      assert parent.children[k - 1] in parent.children;
      NestAppend(open, Children(parent, k - 1), Flatten(parent.children[k - 1]));
      NestChildren(open, parent, k - 1);
      NestNode(open, parent.children[k - 1]);
    }
  }

  /** Any forest flattens to properly nested callbacks. */
  lemma {:induction false} ForestWellNested(nodes: seq<Node>)
    ensures WellNested(Forest(nodes))
    decreases |nodes|
  {
    if |nodes| > 0 {
      ForestWellNested(nodes[..|nodes| - 1]);
      NestAppend([], Forest(nodes[..|nodes| - 1]), Flatten(nodes[|nodes| - 1]));
      NestNode([], nodes[|nodes| - 1]);
    }
  }

  // ---------------------------------------------------------------------
  // Items are extended, never rewritten
  // ---------------------------------------------------------------------

  /**
    `b` is `a` after appends: no item disappears and each item keeps its first
    property's name, with that property's old values as a prefix of the new.
   */
  predicate ArenaExtends(a: seq<Item>, b: seq<Item>) {
    |a| <= |b|
    && forall k :: 0 <= k < |a| && |a[k].props| > 0 ==>
      |b[k].props| > 0 && b[k].props[0].name == a[k].props[0].name && a[k].props[0].values <= b[k].props[0].values
  }

  lemma ArenaExtendsTrans(a: seq<Item>, b: seq<Item>, c: seq<Item>)
    requires ArenaExtends(a, b) && ArenaExtends(b, c)
    ensures ArenaExtends(a, c)
  {
  }

  lemma AppendToExtends(arena: seq<Item>, i: nat, name: string, v: Val)
    ensures ArenaExtends(arena, AppendTo(arena, i, name, v))
  {
  }

  lemma StartArena(s: State, localName: string, qName: string, attrs: map<string, string>)
    requires Valid(s)
    ensures ArenaExtends(s.arena, OnStartElement(s, localName, qName, attrs).state.arena)
  {
    if !IsScript(localName, qName) && OpensScope(attrs) && ShortTypeName(attrs[ITEMTYPE_ATTRIBUTE]).Some? {
      var name := ShortTypeName(attrs[ITEMTYPE_ATTRIBUTE]).value;
      var itemprop := Get(attrs, ITEMPROP_ATTRIBUTE);
      assert OnStartElement(s, localName, qName, attrs).state.arena == ScopeArena(s, name, itemprop);
      var created := s.arena + [NewItem(name)];
      assert ArenaExtends(s.arena, created);
      if itemprop.Some? && |s.items| > 0 {
        AppendToExtends(created, Current(s), itemprop.value, Ref(|s.arena|));
      }
    } else if IsLeafProperty(s, localName, qName, attrs) {
      match ResolveLeaf(localName, attrs)
      case Inline(v) => AppendToExtends(s.arena, Current(s), attrs[ITEMPROP_ATTRIBUTE], Str(v));
      case Deferred =>
    }
  }

  lemma EndArena(parse: JsonParser, s: State, localName: string, qName: string)
    ensures ArenaExtends(s.arena, OnEndElement(parse, s, localName, qName).state.arena)
  {
    if !(IsScript(localName, qName) && s.containsJsonld) {
      var flushed := FlushPending(s);
      if s.propertyName.Some? && |s.items| > 0 {
        AppendToExtends(s.arena, Current(s), s.propertyName.value, Str(Some(Trim(s.buffer))));
      }
      assert OnEndElement(parse, s, localName, qName).state.arena == flushed.arena;
    }
  }

  lemma StepArena(parse: JsonParser, s: State, e: Event)
    requires Valid(s)
    ensures ArenaExtends(s.arena, Step(parse, s, e).state.arena)
  {
    match e
    case StartElement(l, q, a) => StartArena(s, l, q, a);
    case EndElement(l, q) => EndArena(parse, s, l, q);
    case _ =>
  }

  // ---------------------------------------------------------------------
  // Running one subtree
  // ---------------------------------------------------------------------

  /** What running a subtree from `s` leaves: both stacks as they were, the trace and the arena only extended. */
  predicate Restored(s: State, t: State) {
    && Valid(t)
    && t.tagTypes == s.tagTypes && t.items == s.items
    && s.trace <= t.trace
    && ArenaExtends(s.arena, t.arena)
  }

  /** Running one event, then the rest. */
  lemma RunCons(parse: JsonParser, s: State, e: Event, rest: seq<Event>)
    ensures Step(parse, s, e).Continue? ==> Run(parse, s, [e] + rest) == Run(parse, Step(parse, s, e).state, rest)
    ensures Step(parse, s, e).Thrown? ==> Run(parse, s, [e] + rest) == Step(parse, s, e)
  {
    assert ([e] + rest)[0] == e;
    assert ([e] + rest)[1..] == rest;
  }

  /** The stacks after opening an element: one tag type pushed, and exactly one item with it when it is `Microdata`. */
  predicate Pushed(s: State, s1: State, top: Format) {
    && s1.tagTypes == s.tagTypes + [top]
    && if top == Microdata then |s1.items| == |s.items| + 1 && s1.items[..|s.items|] == s.items
       else s1.items == s.items
  }

  /** Opening an element that does not throw: the state stays valid and nothing is reported as an item. */
  lemma OpenElement(s: State, l: string, q: string, a: map<string, string>)
    requires Valid(s) && !BadItemtype(StartElement(l, q, a))
    ensures OnStartElement(s, l, q, a).Continue?
    ensures var s1 := OnStartElement(s, l, q, a).state;
      && Valid(s1) && ArenaExtends(s.arena, s1.arena) && s.trace <= s1.trace
      && ItemCount(s1.trace) == ItemCount(s.trace)
      && |s1.tagTypes| == |s.tagTypes| + 1 && Pushed(s, s1, s1.tagTypes[|s.tagTypes|])
      && (s1.tagTypes[|s.tagTypes|] == Microdata ==> !IsScript(l, q))
  {
    var s1 := OnStartElement(s, l, q, a).state;
    StartElementValid(s, l, q, a);
    StartArena(s, l, q, a);
    assert s1.tagTypes == s.tagTypes + [s1.tagTypes[|s.tagTypes|]];
    if s1.trace != s.trace {
      var last := s1.trace[|s1.trace| - 1];
      TypeCountSnoc(s.trace, last);
      assert s1.trace == s.trace + [last];
    }
  }

  /** Closing an element whose children put back the stacks its start tag left. */
  lemma CloseElement(parse: JsonParser, s: State, s1: State, s2: State, l: string, q: string, top: Format)
    requires Pushed(s, s1, top) && (top == Microdata ==> !IsScript(l, q))
    requires ArenaExtends(s.arena, s1.arena) && s.trace <= s1.trace && Restored(s1, s2)
    ensures OnEndElement(parse, s2, l, q).Continue?
    ensures Restored(s, OnEndElement(parse, s2, l, q).state)
    ensures !(IsScript(l, q) && s2.containsJsonld) ==>
      OnEndElement(parse, s2, l, q).state.containsJsonld == s2.containsJsonld
    ensures |s.items| > 0 && !(IsScript(l, q) && s2.containsJsonld) ==>
      OnEndElement(parse, s2, l, q).state.trace == s2.trace
  {
    assert Pushed(s, s2, top);
    assert s2.tagTypes[..|s2.tagTypes| - 1] == s.tagTypes;
    assert top == Microdata ==> s2.items[..|s2.items| - 1] == s.items;
    EndElementValid(parse, s2, l, q);
    EndArena(parse, s2, l, q);
    StepExtendsTrace(parse, s2, EndElement(l, q));
    var t := OnEndElement(parse, s2, l, q).state;
    ArenaExtendsTrans(s.arena, s1.arena, s2.arena);
    ArenaExtendsTrans(s.arena, s2.arena, t.arena);
  }

  /** An element's callbacks: its start tag, its children's callbacks, its end tag. */
  lemma ElementEvents(n: Node)
    requires n.Element?
    ensures var kids := Children(n, |n.children|);
      && Flatten(n) == [StartElement(n.localName, n.qName, n.attrs)] + (kids + [EndElement(n.localName, n.qName)])
      && (NoBadTypes(Flatten(n)) ==> !BadItemtype(StartElement(n.localName, n.qName, n.attrs)) && NoBadTypes(kids))
  {
    var kids := Children(n, |n.children|);
    var first := [StartElement(n.localName, n.qName, n.attrs)];
    var last := [EndElement(n.localName, n.qName)];
    assert Flatten(n) == first + (kids + last);
    EventsSplit(first, kids + last);
    EventsSplit(kids, last);
    assert first[0] == StartElement(n.localName, n.qName, n.attrs) && first[1..] == [];
  }

  /** Where no JSON-LD block ends in an element, none ends in its children, and its start tag keeps the capture flag. */
  lemma ElementBlocks(n: Node, capturing: bool)
    requires n.Element? && NoBlockEnds(capturing, Flatten(n))
    ensures !JsonLdStart(StartElement(n.localName, n.qName, n.attrs))
    ensures capturing ==> !IsScript(n.localName, n.qName)
    ensures NoBlockEnds(capturing, Children(n, |n.children|))
  {
    var kids := Children(n, |n.children|);
    var first := [StartElement(n.localName, n.qName, n.attrs)];
    var last := [EndElement(n.localName, n.qName)];
    assert Flatten(n) == first + (kids + last);
    NoBlockEndsAppend(capturing, first, kids + last);
    NoBlockEndsAppend(capturing, kids, last);
    assert first[1..] == [];
  }

  /** Running an element is running its start tag, then its children, then its end tag. */
  lemma ElementRun(parse: JsonParser, s: State, n: Node, s1: State, s2: State)
    requires n.Element?
    requires OnStartElement(s, n.localName, n.qName, n.attrs) == Continue(s1)
    requires Run(parse, s1, Children(n, |n.children|)) == Continue(s2)
    ensures Run(parse, s, Flatten(n)) == OnEndElement(parse, s2, n.localName, n.qName)
  {
    var kids := Children(n, |n.children|);
    var close := EndElement(n.localName, n.qName);
    ElementEvents(n);
    RunCons(parse, s, StartElement(n.localName, n.qName, n.attrs), kids + [close]);
    RunAppend(parse, s1, kids, [close]);
    RunCons(parse, s2, close, []);
    assert [close] + [] == [close];
  }

  /**
    A subtree without an all-slash `itemtype` runs without exception, puts
    back both stacks, and only extends the trace and the arena.
   */
  lemma {:induction false} RunNode(parse: JsonParser, s: State, n: Node)
    requires Valid(s) && NoBadTypes(Flatten(n))
    ensures Run(parse, s, Flatten(n)).Continue?
    ensures Restored(s, Run(parse, s, Flatten(n)).state)
    decreases n, 1
  {
    if n.Text? {
      assert Run(parse, s, Flatten(n)) == Continue(OnCharacters(s, n.text));
    } else {
      var l, q, a := n.localName, n.qName, n.attrs;
      ElementEvents(n);
      OpenElement(s, l, q, a);
      var s1 := OnStartElement(s, l, q, a).state;
      RunChildren(parse, s1, n, |n.children|);
      var s2 := Run(parse, s1, Children(n, |n.children|)).state;
      CloseElement(parse, s, s1, s2, l, q, s1.tagTypes[|s.tagTypes|]);
      ElementRun(parse, s, n, s1, s2);
    }
  }

  /** Two runs that each put back the stacks compose into one that does. */
  lemma RestoredSeq(parse: JsonParser, s: State, a: seq<Event>, b: seq<Event>)
    requires Run(parse, s, a).Continue? && Restored(s, Run(parse, s, a).state)
    requires Run(parse, Run(parse, s, a).state, b).Continue?
    requires Restored(Run(parse, s, a).state, Run(parse, Run(parse, s, a).state, b).state)
    ensures Run(parse, s, a + b) == Run(parse, Run(parse, s, a).state, b)
    ensures Restored(s, Run(parse, s, a + b).state)
  {
    var m := Run(parse, s, a).state;
    RunAppend(parse, s, a, b);
    ArenaExtendsTrans(s.arena, m.arena, Run(parse, m, b).state.arena);
  }

  /** The first `k` children's callbacks are the first `k - 1` children's, then the `k`-th child's. */
  lemma ChildrenStep(parent: Node, k: nat)
    requires parent.Element? && 0 < k <= |parent.children|
    ensures var before := Children(parent, k - 1);
      var last := Flatten(parent.children[k - 1]);
      && Children(parent, k) == before + last
      && (NoBadTypes(Children(parent, k)) ==> NoBadTypes(before) && NoBadTypes(last))
  {
    EventsSplit(Children(parent, k - 1), Flatten(parent.children[k - 1]));
  }

  lemma ChildrenBlocks(parent: Node, k: nat, capturing: bool)
    requires parent.Element? && 0 < k <= |parent.children|
    requires NoBlockEnds(capturing, Children(parent, k))
    ensures NoBlockEnds(capturing, Children(parent, k - 1)) && NoBlockEnds(capturing, Flatten(parent.children[k - 1]))
  {
    ChildrenStep(parent, k);
    NoBlockEndsAppend(capturing, Children(parent, k - 1), Flatten(parent.children[k - 1]));
  }

  lemma {:induction false} RunChildren(parse: JsonParser, s: State, parent: Node, k: nat)
    requires parent.Element? && k <= |parent.children|
    requires Valid(s) && NoBadTypes(Children(parent, k))
    ensures Run(parse, s, Children(parent, k)).Continue?
    ensures Restored(s, Run(parse, s, Children(parent, k)).state)
    decreases parent, 0, k
  {
    if k == 0 {
      assert Run(parse, s, []) == Continue(s);
    } else {
      var child := parent.children[k - 1];
      assert child in parent.children;
      var before, last := Children(parent, k - 1), Flatten(child);
      assert Children(parent, k) == before + last && NoBadTypes(before) && NoBadTypes(last) by {
        ChildrenStep(parent, k);
      }
      assert Run(parse, s, before).Continue? && Restored(s, Run(parse, s, before).state) by {
        RunChildren(parse, s, parent, k - 1);
      }
      var mid := Run(parse, s, before).state;
      assert Run(parse, mid, last).Continue? && Restored(mid, Run(parse, mid, last).state) by {
        RunNode(parse, mid, child);
      }
      RestoredSeq(parse, s, before, last);
    }
  }

  /** `t` has the capture flag of `s` and, when `s` had an item open, no item reported since. */
  predicate KeepsItems(s: State, t: State) {
    t.containsJsonld == s.containsJsonld && (|s.items| > 0 ==> ItemCount(t.trace) == ItemCount(s.trace))
  }

  lemma KeepsItemsSeq(s: State, m: State, t: State)
    requires m.items == s.items && KeepsItems(s, m) && KeepsItems(m, t)
    ensures KeepsItems(s, t)
  {
  }

  /**
    A subtree in which no JSON-LD block ends leaves the capture flag as it
    was and, when it starts inside an item, reports no item: every item it
    opens is closed inside the outer one. Ordinary scripts may occur in it.
   */
  lemma {:induction false} SubtreeReportsNoItem(parse: JsonParser, s: State, n: Node)
    requires Valid(s) && NoBadTypes(Flatten(n)) && NoBlockEnds(s.containsJsonld, Flatten(n))
    ensures KeepsItems(s, Run(parse, s, Flatten(n)).state)
    decreases n, 1
  {
    if n.Text? {
      assert Run(parse, s, Flatten(n)) == Continue(OnCharacters(s, n.text));
    } else {
      var l, q, a := n.localName, n.qName, n.attrs;
      ElementEvents(n);
      ElementBlocks(n, s.containsJsonld);
      OpenElement(s, l, q, a);
      var s1 := OnStartElement(s, l, q, a).state;
      RunChildren(parse, s1, n, |n.children|);
      ChildrenReportNoItem(parse, s1, n, |n.children|);
      var s2 := Run(parse, s1, Children(n, |n.children|)).state;
      CloseElement(parse, s, s1, s2, l, q, s1.tagTypes[|s.tagTypes|]);
      ElementRun(parse, s, n, s1, s2);
    }
  }

  lemma {:induction false} ChildrenReportNoItem(parse: JsonParser, s: State, parent: Node, k: nat)
    requires parent.Element? && k <= |parent.children|
    requires Valid(s) && NoBadTypes(Children(parent, k)) && NoBlockEnds(s.containsJsonld, Children(parent, k))
    ensures KeepsItems(s, Run(parse, s, Children(parent, k)).state)
    decreases parent, 0, k
  {
    if k == 0 {
      assert Run(parse, s, []) == Continue(s);
    } else {
      var child := parent.children[k - 1];
      assert child in parent.children;
      LastChildRun(parse, s, parent, k);
      ChildrenReportNoItem(parse, s, parent, k - 1);
      var mid := Run(parse, s, Children(parent, k - 1)).state;
      SubtreeReportsNoItem(parse, mid, child);
      KeepsItemsSeq(s, mid, Run(parse, mid, Flatten(child)).state);
    }
  }

  /**
    Running the first `k` children is running the first `k - 1`, which keeps
    the state valid and the open items, then the `k`-th; both parts inherit
    the absence of bad scopes and of block ends.
   */
  lemma LastChildRun(parse: JsonParser, s: State, parent: Node, k: nat)
    requires parent.Element? && 0 < k <= |parent.children|
    requires Valid(s) && NoBadTypes(Children(parent, k)) && NoBlockEnds(s.containsJsonld, Children(parent, k))
    ensures NoBadTypes(Children(parent, k - 1)) && NoBlockEnds(s.containsJsonld, Children(parent, k - 1))
    ensures var r := Run(parse, s, Children(parent, k - 1));
      && r.Continue? && Valid(r.state) && r.state.items == s.items
      && (KeepsItems(s, r.state) ==>
            NoBadTypes(Flatten(parent.children[k - 1])) && NoBlockEnds(r.state.containsJsonld, Flatten(parent.children[k - 1])))
      && Run(parse, s, Children(parent, k)) == Run(parse, r.state, Flatten(parent.children[k - 1]))
  {
    var before, last := Children(parent, k - 1), Flatten(parent.children[k - 1]);
    ChildrenStep(parent, k);
    ChildrenBlocks(parent, k, s.containsJsonld);
    RunChildren(parse, s, parent, k - 1);
    RunThen(parse, s, before, last);
  }

  /** A run that gets through `a` goes on with `b` from where `a` left it. */
  lemma RunThen(parse: JsonParser, s: State, a: seq<Event>, b: seq<Event>)
    requires Run(parse, s, a).Continue?
    ensures Run(parse, s, a + b) == Run(parse, Run(parse, s, a).state, b)
  {
    RunAppend(parse, s, a, b);
  }


  // ---------------------------------------------------------------------
  // Top-level emission
  // ---------------------------------------------------------------------

  /** Opening a scope outside every item: a fresh item, the only open one, announced once. */
  lemma OpenTopScope(s: State, l: string, q: string, a: map<string, string>)
    requires Valid(s) && s.items == []
    requires !IsScript(l, q) && OpensScope(a) && ShortTypeName(a[ITEMTYPE_ATTRIBUTE]).Some?
    ensures OnStartElement(s, l, q, a).Continue?
    ensures var s1 := OnStartElement(s, l, q, a).state;
      var name := ShortTypeName(a[ITEMTYPE_ATTRIBUTE]).value;
      && s1.items == [|s.arena|] && s1.arena == s.arena + [NewItem(name)]
      && s1.tagTypes == s.tagTypes + [Microdata]
      && s1.trace == s.trace + [FoundItemtype(Some(name), Microdata)]
      && ItemCount(s1.trace) == ItemCount(s.trace)
  {
    var name := ShortTypeName(a[ITEMTYPE_ATTRIBUTE]).value;
    assert OnStartElement(s, l, q, a).state.arena == ScopeArena(s, name, Get(a, ITEMPROP_ATTRIBUTE));
    TypeCountSnoc(s.trace, FoundItemtype(Some(name), Microdata));
  }

  /** Closing the only open item reports it. */
  lemma CloseTopScope(parse: JsonParser, s2: State, l: string, q: string)
    requires Valid(s2) && !IsScript(l, q)
    requires |s2.tagTypes| > 0 && s2.tagTypes[|s2.tagTypes| - 1] == Microdata && |s2.items| == 1
    ensures OnEndElement(parse, s2, l, q).Continue?
    ensures var t := OnEndElement(parse, s2, l, q).state;
      && t.items == [] && t.tagTypes == s2.tagTypes[..|s2.tagTypes| - 1]
      && t.trace == s2.trace + [FoundItem(ToJson(t.arena, s2.items[0]))]
      && ItemCount(t.trace) == ItemCount(s2.trace) + 1
      && ArenaExtends(s2.arena, t.arena)
  {
    var t := OnEndElement(parse, s2, l, q).state;
    TypeCountSnoc(s2.trace, FoundItem(ToJson(t.arena, s2.items[0])));
    EndArena(parse, s2, l, q);
  }

  /**
    A top-level scope (no item open) whose subtree has no all-slash `itemtype`
    and in which no JSON-LD block ends (ordinary scripts may occur) is counted and announced first, reported as exactly
    one finished item at its close, and that item is the one created for it:
    its `"type"` list starts with the short type name.
   */
  lemma TopLevelItemReportedOnce(parse: JsonParser, s: State, n: Node)
    requires Valid(s) && s.items == []
    requires n.Element? && !IsScript(n.localName, n.qName) && OpensScope(n.attrs)
    requires NoBadTypes(Flatten(n)) && NoBlockEnds(s.containsJsonld, Flatten(n))
    ensures Run(parse, s, Flatten(n)).Continue?
    ensures var t := Run(parse, s, Flatten(n)).state;
      var name := ShortTypeName(n.attrs[ITEMTYPE_ATTRIBUTE]).value;
      && t.items == [] && t.tagTypes == s.tagTypes
      && ItemCount(t.trace) == ItemCount(s.trace) + 1
      && |t.trace| > |s.trace| + 1
      && t.trace[|s.trace|] == FoundItemtype(Some(name), Microdata)
      && t.trace[|t.trace| - 1] == FoundItem(ToJson(t.arena, |s.arena|))
      && |s.arena| < |t.arena| && |t.arena[|s.arena|].props| > 0
      && t.arena[|s.arena|].props[0].name == TYPE_PROPERTY
      && |t.arena[|s.arena|].props[0].values| > 0
      && t.arena[|s.arena|].props[0].values[0] == Str(Some(name))
  {
    var l, q, a := n.localName, n.qName, n.attrs;
    var kids := Children(n, |n.children|);
    assert !BadItemtype(StartElement(l, q, a)) && NoBadTypes(kids) by {
      ElementEvents(n);
    }
    assert NoBlockEnds(s.containsJsonld, kids) by {
      ElementBlocks(n, s.containsJsonld);
    }
    var name := ShortTypeName(a[ITEMTYPE_ATTRIBUTE]).value;
    OpenTopScope(s, l, q, a);
    var s1 := OnStartElement(s, l, q, a).state;
    assert Valid(s1) by {
      StartElementValid(s, l, q, a);
    }
    var r := Run(parse, s1, kids);
    assert r.Continue? && Restored(s1, r.state) by {
      RunChildren(parse, s1, n, |n.children|);
    }
    assert KeepsItems(s1, r.state) by {
      ChildrenReportNoItem(parse, s1, n, |n.children|);
    }
    var s2 := r.state;
    assert Run(parse, s, Flatten(n)) == OnEndElement(parse, s2, l, q) by {
      ElementRun(parse, s, n, s1, s2);
    }
    CloseTopScope(parse, s2, l, q);
    var t := OnEndElement(parse, s2, l, q).state;
    ArenaExtendsTrans(s1.arena, s2.arena, t.arena);
    assert s1.trace <= s2.trace;
  }


  /**
    A document given as a forest runs to completion exactly when no scope has
    an all-slash `itemtype`, and then ends with both stacks empty.
   */
  lemma ForestDocument(parse: JsonParser, nodes: seq<Node>)
    ensures ParseDocument(parse, Forest(nodes)).Continue? <==> NoBadTypes(Forest(nodes))
    ensures ParseDocument(parse, Forest(nodes)).Continue? ==>
      ParseDocument(parse, Forest(nodes)).state.tagTypes == [] && ParseDocument(parse, Forest(nodes)).state.items == []
  {
    ForestWellNested(nodes);
    NoBadTypesAt(Forest(nodes));
    DocumentBalanced(parse, Forest(nodes));
  }

  // ---------------------------------------------------------------------
  // Counting item types
  // ---------------------------------------------------------------------

  /** A start tag that opens an item: a scope on a tag other than `script`. */
  predicate OpensItem(e: Event) {
    e.StartElement? && !IsScript(e.localName, e.qName) && OpensScope(e.attrs)
  }

  /** The number of start tags in `events` that open an item. */
  function ScopeStarts(events: seq<Event>): nat {
    if |events| == 0 then 0 else (if OpensItem(events[0]) then 1 else 0) + ScopeStarts(events[1..])
  }

  lemma ScopeStep(parse: JsonParser, s: State, e: Event)
    requires !s.containsJsonld && !JsonLdStart(e)
    ensures !Step(parse, s, e).state.containsJsonld
    ensures Step(parse, s, e).Continue? ==>
      TypeCount(Step(parse, s, e).state.trace) == TypeCount(s.trace) + (if OpensItem(e) then 1 else 0)
  {
    match e
    case StartElement(l, q, a) =>
      var r := OnStartElement(s, l, q, a);
      if r.Continue? && r.state.tagTypes[|s.tagTypes|] == Microdata {
        TypeCountSnoc(s.trace, r.state.trace[|r.state.trace| - 1]);
      }
    case EndElement(l, q) =>
      var r := OnEndElement(parse, s, l, q);
      if r.Continue? && r.state.trace != s.trace {
        TypeCountSnoc(s.trace, r.state.trace[|r.state.trace| - 1]);
      }
    case Characters(_) =>
    case StartDocument => TypeCountSnoc(s.trace, StartParsing);
    case EndDocument => TypeCountSnoc(s.trace, EndParsing(s.totalItemtypes));
  }

  /**
    Outside JSON-LD, every start tag that opens an item announces exactly one
    item type and nothing else announces any, however the tags nest.
   */
  lemma {:induction false} RunCountsScopes(parse: JsonParser, s: State, events: seq<Event>)
    requires !s.containsJsonld && NoJsonLd(events)
    ensures Run(parse, s, events).Continue? ==>
      TypeCount(Run(parse, s, events).state.trace) == TypeCount(s.trace) + ScopeStarts(events)
    decreases |events|
  {
    if |events| > 0 {
      assert NoJsonLd(events[1..]) by {
        forall i | 0 <= i < |events[1..]|
          ensures events[1..][i] == events[i + 1]
        {
        }
      }
      ScopeStep(parse, s, events[0]);
      var r := Step(parse, s, events[0]);
      if r.Continue? {
        RunCountsScopes(parse, r.state, events[1..]);
      }
    }
  }

  lemma {:induction false} ScopeStartsAppend(a: seq<Event>, b: seq<Event>)
    ensures ScopeStarts(a + b) == ScopeStarts(a) + ScopeStarts(b)
    decreases |a|
  {
    if |a| == 0 {
      assert a + b == b;
    } else {
      assert (a + b)[0] == a[0];
      assert (a + b)[1..] == a[1..] + b;
      ScopeStartsAppend(a[1..], b);
    }
  }

  /** A subtree without script tags and without a scope whose `itemtype` is all slashes. */
  predicate Plain(n: Node)
    decreases n, 1
  {
    match n
    case Text(_) => true
    case Element(l, q, a, cs) => !IsScript(l, q) && !BadItemtype(StartElement(l, q, a)) && PlainChildren(n, |cs|)
  }

  /** The first `k` children of `parent` are plain. */
  predicate PlainChildren(parent: Node, k: nat)
    requires parent.Element? && k <= |parent.children|
    decreases parent, 0, k
  {
    if k == 0 then true
    else
      assert parent.children[k - 1] in parent.children;
      PlainChildren(parent, k - 1) && Plain(parent.children[k - 1])
  }

  /** The number of elements in the subtree that carry both `itemscope` and `itemtype`. */
  function ScopeCount(n: Node): nat
    decreases n, 1
  {
    match n
    case Text(_) => 0
    case Element(l, q, a, cs) => (if OpensScope(a) then 1 else 0) + ChildScopes(n, |cs|)
  }

  /** `ScopeCount` summed over the first `k` children of `parent`. */
  function ChildScopes(parent: Node, k: nat): nat
    requires parent.Element? && k <= |parent.children|
    decreases parent, 0, k
  {
    if k == 0 then 0
    else
      assert parent.children[k - 1] in parent.children;
      ChildScopes(parent, k - 1) + ScopeCount(parent.children[k - 1])
  }

  /** The callbacks of a plain subtree have no script tag and no bad scope, and open one item per scope element. */
  lemma {:induction false} PlainEvents(n: Node)
    requires Plain(n)
    ensures NoScripts(Flatten(n)) && NoBadTypes(Flatten(n)) && ScopeStarts(Flatten(n)) == ScopeCount(n)
    decreases n, 1
  {
    match n
    case Text(t) =>
      assert Flatten(n) == [Characters(t)];
      assert Flatten(n)[1..] == [];
    case Element(l, q, a, cs) =>
      PlainChildrenEvents(n, |cs|);
      var kids := Children(n, |cs|);
      var first := [StartElement(l, q, a)];
      var last := [EndElement(l, q)];
      assert Flatten(n) == first + (kids + last);
      EventsSplit(first, kids + last);
      EventsSplit(kids, last);
      ScopeStartsAppend(first, kids + last);
      ScopeStartsAppend(kids, last);
      assert first[1..] == [] && last[1..] == [];
  }

  lemma {:induction false} PlainChildrenEvents(parent: Node, k: nat)
    requires parent.Element? && k <= |parent.children| && PlainChildren(parent, k)
    ensures var kids := Children(parent, k);
      NoScripts(kids) && NoBadTypes(kids) && ScopeStarts(kids) == ChildScopes(parent, k)
    decreases parent, 0, k
  {
    if k > 0 {
      var c := parent.children[k - 1];
      assert c in parent.children;
      PlainChildrenEvents(parent, k - 1);
      PlainEvents(c);
      EventsSplit(Children(parent, k - 1), Flatten(c));
      ScopeStartsAppend(Children(parent, k - 1), Flatten(c));
    }
  }

  // ---------------------------------------------------------------------
  // Documents without annotations
  // ---------------------------------------------------------------------

  /** A start tag that annotates: a JSON-LD script, or a non-script tag opening a scope. */
  predicate Annotates(e: Event) {
    JsonLdStart(e) || OpensItem(e)
  }

  /**
    Tag and text callbacks only, with no JSON-LD script and no scope anywhere:
    nothing for the handler to find. Other scripts and stray `itemprop`s may occur.
   */
  predicate Unannotated(events: seq<Event>) {
    forall i :: 0 <= i < |events| ==> !events[i].StartDocument? && !events[i].EndDocument? && !Annotates(events[i])
  }

  lemma UnannotatedStep(parse: JsonParser, s: State, e: Event)
    requires s.items == [] && !s.containsJsonld
    requires !e.StartDocument? && !e.EndDocument? && !Annotates(e)
    ensures var t := Step(parse, s, e).state;
      t.trace == s.trace && t.totalItemtypes == s.totalItemtypes && t.items == [] && !t.containsJsonld
  {
    match e
    case StartElement(l, q, a) =>
    case EndElement(l, q) =>
      var flushed := FlushPending(s);
      if |flushed.tagTypes| > 0 {
        var popped := flushed.(tagTypes := flushed.tagTypes[..|flushed.tagTypes| - 1]);
        assert PopTagType(flushed) == Continue(popped);
      }
    case Characters(_) =>
  }

  /** Outside any item and any capture, unannotated callbacks notify nobody, nested or not. */
  lemma {:induction false} UnannotatedRunSilent(parse: JsonParser, s: State, events: seq<Event>)
    requires s.items == [] && !s.containsJsonld && Unannotated(events)
    ensures Run(parse, s, events).state.trace == s.trace
    ensures Run(parse, s, events).state.totalItemtypes == s.totalItemtypes
    decreases |events|
  {
    if |events| > 0 {
      var e := events[0];
      assert Unannotated(events[1..]) by {
        forall i | 0 <= i < |events[1..]|
          ensures events[1..][i] == events[i + 1]
        {
        }
      }
      var r := Step(parse, s, e);
      UnannotatedStep(parse, s, e);
      if r.Continue? {
        UnannotatedRunSilent(parse, r.state, events[1..]);
      }
    }
  }

  /**
    A document without JSON-LD scripts or scopes reports only `startParsing`
    and `endParsing(0)`, and hence no item.
   */
  lemma UnannotatedDocument(parse: JsonParser, body: seq<Event>)
    requires WellNested(body) && Unannotated(body)
    ensures ParseDocument(parse, body).Continue?
    ensures ParseDocument(parse, body).state.trace == [StartParsing, EndParsing(0)]
  {
    DocumentBalanced(parse, body);
    UnannotatedRunSilent(parse, Started, body);
    DocumentRun(parse, body);
  }
}

=== FILE: handler_invariants.dfy ===
/**
  What the handler's state always satisfies: a nesting-independent part that
  every callback preserves, and the stack discipline that holds when the
  tokenizer's callbacks are well nested.
 */
module HandlerInvariants {
  import opened Wrappers
  import opened JavaText
  import opened JavaInt
  import opened TypeWalker
  import opened JsonValue
  import opened Listener
  import opened Microdata
  import opened SaxHandler

  // ---------------------------------------------------------------------
  // Nesting-independent invariant
  // ---------------------------------------------------------------------

  /**
    The items form a well-formed forest, open items are in the arena, a pending
    property only exists inside an item, the buffer is empty whenever nothing
    is capturing text, and the counter is the (32-bit) number of item-type
    notifications sent.
   */
  predicate Valid(s: State) {
    && WellFormedArena(s.arena)
    && OpenItemsInArena(s)
    && (s.propertyName.Some? ==> |s.items| > 0)
    && (!s.containsJsonld && s.propertyName.None? ==> s.buffer == "")
    && s.totalItemtypes == Wrap32(TypeCount(s.trace))
  }

  lemma InitValid()
    ensures Valid(Init)
  {
  }

  lemma TypeCountSnoc(t: seq<Notification>, n: Notification)
    ensures TypeCount(t + [n]) == TypeCount(t) + (if n.FoundItemtype? then 1 else 0)
    ensures ItemCount(t + [n]) == ItemCount(t) + (if n.FoundItem? then 1 else 0)
  {
    assert (t + [n])[..|t|] == t;
  }

  lemma {:induction false} TypeNotesCounts(names: seq<Option<string>>, f: Format)
    ensures TypeCount(TypeNotes(names, f)) == |names|
    ensures ItemCount(TypeNotes(names, f)) == 0
    decreases |names|
  {
    if |names| > 0 {
      var init := names[..|names| - 1];
      TypeNotesCounts(init, f);
      assert TypeNotes(names, f) == TypeNotes(init, f) + [FoundItemtype(names[|names| - 1], f)];
      TypeCountSnoc(TypeNotes(init, f), FoundItemtype(names[|names| - 1], f));
    }
  }

  /** Appending one value to an open item keeps the arena well formed. */
  lemma AppendToKeepsArena(arena: seq<Item>, i: nat, name: string, v: Val)
    requires WellFormedArena(arena) && i < |arena|
    requires v.Ref? ==> i < v.index < |arena|
    ensures WellFormedArena(AppendTo(arena, i, name, v))
  {
    AppendValueKeepsShape(arena[i], i, |arena|, name, v);
  }

  /** A new item at the end of the arena keeps it well formed. */
  lemma CreateKeepsArena(arena: seq<Item>, name: string)
    requires WellFormedArena(arena)
    ensures WellFormedArena(arena + [NewItem(name)])
  {
    var created := arena + [NewItem(name)];
    forall i | 0 <= i < |created|
      ensures RefsWithin(created[i], i, |created|) && Typed(created[i]) && NoDuplicates(Keys(created[i].props))
    {
      if i < |arena| {
        assert created[i] == arena[i];
        assert RefsWithin(arena[i], i, |arena|);
      }
    }
  }

  /** The arena a new scope leaves: the new item, attached to the current item when it names a property. */
  function ScopeArena(s: State, name: string, itemprop: Option<string>): seq<Item>
    requires |s.items| > 0 ==> Current(s) < |s.arena|
  {
    var created := s.arena + [NewItem(name)];
    if itemprop.Some? && |s.items| > 0 then AppendTo(created, Current(s), itemprop.value, Ref(|s.arena|))
    else created
  }

  lemma ScopeArenaWellFormed(s: State, name: string, itemprop: Option<string>)
    requires WellFormedArena(s.arena) && OpenItemsInArena(s)
    ensures WellFormedArena(ScopeArena(s, name, itemprop))
  {
    CreateKeepsArena(s.arena, name);
    if itemprop.Some? && |s.items| > 0 {
      AppendToKeepsArena(s.arena + [NewItem(name)], Current(s), itemprop.value, Ref(|s.arena|));
    }
  }

  lemma StartScopeValid(s: State, localName: string, qName: string, attrs: map<string, string>)
    requires Valid(s)
    requires !IsScript(localName, qName) && OpensScope(attrs) && ShortTypeName(attrs[ITEMTYPE_ATTRIBUTE]).Some?
    ensures Valid(OnStartElement(s, localName, qName, attrs).state)
  {
    var name := ShortTypeName(attrs[ITEMTYPE_ATTRIBUTE]).value;
    var t := OnStartElement(s, localName, qName, attrs).state;
    assert t.arena == ScopeArena(s, name, Get(attrs, ITEMPROP_ATTRIBUTE));
    ScopeArenaWellFormed(s, name, Get(attrs, ITEMPROP_ATTRIBUTE));
    TypeCountSnoc(s.trace, FoundItemtype(Some(name), Microdata));
    Inc32OfWrap(TypeCount(s.trace));
  }

  lemma StartElementValid(s: State, localName: string, qName: string, attrs: map<string, string>)
    requires Valid(s)
    ensures Valid(OnStartElement(s, localName, qName, attrs).state)
  {
    if IsScript(localName, qName) {
    } else if OpensScope(attrs) {
      if ShortTypeName(attrs[ITEMTYPE_ATTRIBUTE]).Some? {
        StartScopeValid(s, localName, qName, attrs);
      }
    } else if ITEMPROP_ATTRIBUTE in attrs && |s.items| > 0 {
      match ResolveLeaf(localName, attrs)
      case Inline(v) =>
        AppendToKeepsArena(s.arena, Current(s), attrs[ITEMPROP_ATTRIBUTE], Str(v));
        assert OnStartElement(s, localName, qName, attrs).state ==
          s.(arena := AppendTo(s.arena, Current(s), attrs[ITEMPROP_ATTRIBUTE], Str(v)), tagTypes := s.tagTypes + [NoFormat]);
      case Deferred =>
    }
  }

  /** The counter stays in step with the trace when a JSON-LD block is reported. */
  lemma EndJsonLdCounts(parse: JsonParser, s: State)
    requires s.totalItemtypes == Wrap32(TypeCount(s.trace))
    ensures var t := EndJsonLd(parse, s).state; t.totalItemtypes == Wrap32(TypeCount(t.trace))
  {
    if parse(s.buffer).Some? {
      var j := parse(s.buffer).value;
      var names := TypeNames(j);
      var notes := TypeNotes(names, JsonLd);
      var t := EndJsonLd(parse, s).state;
      CountsAppend(s.trace, notes);
      TypeNotesCounts(names, JsonLd);
      TypeCountSnoc(s.trace + notes, FoundItem(j));
      assert TypeCount(t.trace) == TypeCount(s.trace) + |names|;
      assert t.totalItemtypes == ReportAll(s, names, JsonLd).totalItemtypes;
      if |names| > 0 {
        WrapAdd(TypeCount(s.trace), |names|);
      }
    }
  }

  lemma EndJsonLdValid(parse: JsonParser, s: State)
    requires Valid(s)
    ensures Valid(EndJsonLd(parse, s).state)
  {
    EndJsonLdCounts(parse, s);
  }

  lemma FlushValid(s: State)
    requires Valid(s)
    ensures Valid(FlushPending(s))
  {
    if s.propertyName.Some? && |s.items| > 0 {
      AppendToKeepsArena(s.arena, Current(s), s.propertyName.value, Str(Some(Trim(s.buffer))));
    }
  }

  lemma EndElementValid(parse: JsonParser, s: State, localName: string, qName: string)
    requires Valid(s)
    ensures Valid(OnEndElement(parse, s, localName, qName).state)
  {
    if IsScript(localName, qName) && s.containsJsonld {
      EndJsonLdValid(parse, s);
    } else {
      var flushed := FlushPending(s);
      FlushValid(s);
      if |flushed.tagTypes| > 0 {
        var popped := flushed.(tagTypes := flushed.tagTypes[..|flushed.tagTypes| - 1]);
        assert Valid(popped);
        if s.tagTypes[|s.tagTypes| - 1] == Microdata && |popped.items| > 0 {
          var closed := Current(popped);
          var rest := popped.(items := popped.items[..|popped.items| - 1]);
          assert Valid(rest);
          if |rest.items| == 0 {
            var n := FoundItem(ToJson(rest.arena, closed));
            TypeCountSnoc(rest.trace, n);
            assert OnEndElement(parse, s, localName, qName) == Continue(rest.(trace := rest.trace + [n]));
          } else {
            assert OnEndElement(parse, s, localName, qName) == Continue(rest);
          }
        }
      }
    }
  }

  /** Every callback, normal or throwing, leaves a valid state behind. */
  lemma StepValid(parse: JsonParser, s: State, e: Event)
    requires Valid(s)
    ensures Valid(Step(parse, s, e).state)
  {
    match e
    case StartDocument => TypeCountSnoc(s.trace, StartParsing);
    case EndDocument => TypeCountSnoc(s.trace, EndParsing(s.totalItemtypes));
    case StartElement(l, q, a) => StartElementValid(s, l, q, a);
    case EndElement(l, q) => EndElementValid(parse, s, l, q);
    case Characters(t) =>
  }

  /**
    For any sequence of callbacks, well nested or not, the invariant holds
    afterwards; in particular the counter always equals the number of
    `foundItemtype` notifications sent, wrapped to 32 bits.
   */
  lemma {:induction false} RunValid(parse: JsonParser, s: State, events: seq<Event>)
    requires Valid(s)
    ensures Valid(Run(parse, s, events).state)
    ensures Run(parse, s, events).state.totalItemtypes == Wrap32(TypeCount(Run(parse, s, events).state.trace))
    decreases |events|
  {
    if |events| > 0 {
      StepValid(parse, s, events[0]);
      match Step(parse, s, events[0])
      case Continue(next) => RunValid(parse, next, events[1..]);
      case Thrown(_, _) =>
    }
  }

  // ---------------------------------------------------------------------
  // Well-nested callbacks
  // ---------------------------------------------------------------------

  /** An open tag as the tokenizer reports it at both ends. */
  datatype Tag = Tag(localName: string, qName: string)

  predicate IsScriptTag(t: Tag) {
    IsScript(t.localName, t.qName)
  }

  /** The open-tag stack after one callback, or `None` when an end tag does not close the innermost open tag. */
  function NestStep(open: seq<Tag>, e: Event): Option<seq<Tag>> {
    match e
    case StartElement(l, q, _) => Some(open + [Tag(l, q)])
    case EndElement(l, q) =>
      if |open| > 0 && open[|open| - 1] == Tag(l, q) then Some(open[..|open| - 1]) else None
    case _ => Some(open)
  }

  /** The open-tag stack after a sequence of callbacks, or `None` if they are not nested properly. */
  function Nest(open: seq<Tag>, events: seq<Event>): Option<seq<Tag>>
    decreases |events|
  {
    if |events| == 0 then Some(open)
    else
      match NestStep(open, events[0])
      case None => None
      case Some(next) => Nest(next, events[1..])
  }

  /** Every end tag closes the innermost open tag and every tag opened is closed. */
  predicate WellNested(events: seq<Event>) {
    Nest([], events) == Some([])
  }

  /** The one way `startElement` throws: `itemscope` with an `itemtype` made only of slashes. */
  predicate BadItemtype(e: Event) {
    e.StartElement? && !IsScript(e.localName, e.qName) && OpensScope(e.attrs)
    && ShortTypeName(e.attrs[ITEMTYPE_ATTRIBUTE]).None?
  }

  /** Number of `Microdata` entries on a tag-type stack. */
  function MicrodataDepth(fs: seq<Format>): (n: nat)
    ensures n <= |fs|
  {
    if |fs| == 0 then 0 else MicrodataDepth(fs[..|fs| - 1]) + (if fs[|fs| - 1] == Microdata then 1 else 0)
  }

  /**
    The stack discipline: one tag-type entry per open tag, `JsonLd` exactly for
    script tags, one open item per `Microdata` entry, and capture only inside
    an open script tag.
   */
  predicate Aligned(s: State, open: seq<Tag>) {
    && Valid(s)
    && |s.tagTypes| == |open|
    && (forall i :: 0 <= i < |open| ==> (s.tagTypes[i] == JsonLd <==> IsScriptTag(open[i])))
    && MicrodataDepth(s.tagTypes) == |s.items|
    && (s.containsJsonld ==> JsonLd in s.tagTypes)
  }

  lemma InitAligned()
    ensures Aligned(Init, [])
  {
  }

  lemma StartAligned(s: State, open: seq<Tag>, localName: string, qName: string, attrs: map<string, string>)
    requires Aligned(s, open)
    requires !BadItemtype(StartElement(localName, qName, attrs))
    ensures OnStartElement(s, localName, qName, attrs).Continue?
    ensures Aligned(OnStartElement(s, localName, qName, attrs).state, open + [Tag(localName, qName)])
  {
    StartElementValid(s, localName, qName, attrs);
    var t := OnStartElement(s, localName, qName, attrs).state;
    var fs := t.tagTypes;
    var top := fs[|s.tagTypes|];
    assert fs == s.tagTypes + [top];
    assert MicrodataDepth(fs) == MicrodataDepth(s.tagTypes) + (if top == Microdata then 1 else 0);
    if t.containsJsonld && !s.containsJsonld {
      assert fs[|s.tagTypes|] == JsonLd;
    }
  }

  /** Splitting the top entry off a tag-type stack. */
  lemma DepthSnoc(fs: seq<Format>)
    requires |fs| > 0
    ensures fs == fs[..|fs| - 1] + [fs[|fs| - 1]]
    ensures MicrodataDepth(fs) == MicrodataDepth(fs[..|fs| - 1]) + (if fs[|fs| - 1] == Microdata then 1 else 0)
  {
    var init := fs[..|fs| - 1];
    assert forall i :: 0 <= i < |fs| ==> fs[i] == (init + [fs[|fs| - 1]])[i];
  }

  lemma EndScriptAligned(parse: JsonParser, s: State, open: seq<Tag>, localName: string, qName: string)
    requires Aligned(s, open) && |open| > 0 && open[|open| - 1] == Tag(localName, qName)
    requires IsScript(localName, qName) && s.containsJsonld
    ensures OnEndElement(parse, s, localName, qName).Continue?
    ensures Aligned(OnEndElement(parse, s, localName, qName).state, open[..|open| - 1])
  {
    EndJsonLdValid(parse, s);
    DepthSnoc(s.tagTypes);
    assert s.tagTypes[|s.tagTypes| - 1] == JsonLd;
  }

  lemma EndOtherAligned(parse: JsonParser, s: State, open: seq<Tag>, localName: string, qName: string)
    requires Aligned(s, open) && |open| > 0 && open[|open| - 1] == Tag(localName, qName)
    requires !(IsScript(localName, qName) && s.containsJsonld)
    ensures OnEndElement(parse, s, localName, qName).Continue?
    ensures Aligned(OnEndElement(parse, s, localName, qName).state, open[..|open| - 1])
  {
    EndElementValid(parse, s, localName, qName);
    var fs := s.tagTypes;
    var top := fs[|fs| - 1];
    DepthSnoc(fs);
    assert top == JsonLd <==> IsScript(localName, qName);
    if s.containsJsonld {
      assert top != JsonLd;
      assert JsonLd in fs[..|fs| - 1];
    }
  }

  lemma EndAligned(parse: JsonParser, s: State, open: seq<Tag>, localName: string, qName: string)
    requires Aligned(s, open) && |open| > 0 && open[|open| - 1] == Tag(localName, qName)
    ensures OnEndElement(parse, s, localName, qName).Continue?
    ensures Aligned(OnEndElement(parse, s, localName, qName).state, open[..|open| - 1])
  {
    if IsScript(localName, qName) && s.containsJsonld {
      EndScriptAligned(parse, s, open, localName, qName);
    } else {
      EndOtherAligned(parse, s, open, localName, qName);
    }
  }

  lemma StepAligned(parse: JsonParser, s: State, open: seq<Tag>, e: Event)
    requires Aligned(s, open) && NestStep(open, e).Some? && !BadItemtype(e)
    ensures Step(parse, s, e).Continue?
    ensures Aligned(Step(parse, s, e).state, NestStep(open, e).value)
  {
    StepValid(parse, s, e);
    match e
    case StartElement(l, q, a) => StartAligned(s, open, l, q, a);
    case EndElement(l, q) => EndAligned(parse, s, open, l, q);
    case _ =>
  }

  /**
    Stack balance. From an aligned state, a run of properly nested callbacks
    throws exactly when it meets an all-slash `itemtype`; otherwise every
    end tag pops exactly the entry its start tag pushed, so the state is
    aligned with the resulting open-tag stack (no `EmptyStack`, no
    `NoSuchElement`).
   */
  lemma {:induction false} RunAligned(parse: JsonParser, s: State, open: seq<Tag>, events: seq<Event>)
    requires Aligned(s, open) && Nest(open, events).Some?
    ensures Run(parse, s, events).Thrown? <==> exists i :: 0 <= i < |events| && BadItemtype(events[i])
    ensures Run(parse, s, events).Thrown? ==> Run(parse, s, events).error == IndexOutOfBounds
    ensures Run(parse, s, events).Continue? ==> Aligned(Run(parse, s, events).state, Nest(open, events).value)
    decreases |events|
  {
    if |events| > 0 {
      var e := events[0];
      if BadItemtype(e) {
        assert Step(parse, s, e) == Thrown(s, IndexOutOfBounds);
      } else {
        StepAligned(parse, s, open, e);
        var next := Step(parse, s, e).state;
        RunAligned(parse, next, NestStep(open, e).value, events[1..]);
        if exists i :: 0 <= i < |events| && BadItemtype(events[i]) {
          var i :| 0 <= i < |events| && BadItemtype(events[i]);
          assert events[1..][i - 1] == events[i];
        }
        forall i | 0 <= i < |events| - 1 && BadItemtype(events[1..][i])
          ensures exists j :: 0 <= j < |events| && BadItemtype(events[j])
        {
          assert events[i + 1] == events[1..][i];
        }
      }
    }
  }

  // ---------------------------------------------------------------------
  // Whole documents
  // ---------------------------------------------------------------------

  /** A callback only ever adds notifications: what listeners were told is never taken back. */
  lemma StepExtendsTrace(parse: JsonParser, s: State, e: Event)
    ensures s.trace <= Step(parse, s, e).state.trace
  {
    match e
    case EndElement(l, q) =>
      if !(IsScript(l, q) && s.containsJsonld) {
        var r := OnEndElement(parse, s, l, q);
        if r.Thrown? {
          assert FlushPending(s).trace == s.trace;
        }
      }
    case _ =>
  }

  lemma {:induction false} RunExtendsTrace(parse: JsonParser, s: State, events: seq<Event>)
    ensures s.trace <= Run(parse, s, events).state.trace
    decreases |events|
  {
    if |events| > 0 {
      StepExtendsTrace(parse, s, events[0]);
      match Step(parse, s, events[0])
      case Continue(next) => RunExtendsTrace(parse, next, events[1..]);
      case Thrown(_, _) =>
    }
  }

  /** The state after `startDocument`: a fresh handler that has announced the start. */
  const Started: State := Init.(trace := [StartParsing])

  /** A document is its body run from `Started`, then `endDocument` when the body did not throw. */
  lemma DocumentRun(parse: JsonParser, body: seq<Event>)
    ensures Run(parse, Started, body).Thrown? ==> ParseDocument(parse, body) == Run(parse, Started, body)
    ensures Run(parse, Started, body).Continue? ==>
      var m := Run(parse, Started, body).state;
      ParseDocument(parse, body) == Continue(m.(trace := m.trace + [EndParsing(m.totalItemtypes)]))
  {
    RunAppend(parse, Init, [StartDocument], body);
    RunAppend(parse, Init, [StartDocument] + body, [EndDocument]);
    assert Run(parse, Init, [StartDocument]) == Continue(Started);
    var mid := Run(parse, Started, body);
    if mid.Continue? {
      var m := mid.state;
      assert Run(parse, m, [EndDocument]) == Continue(m.(trace := m.trace + [EndParsing(m.totalItemtypes)]));
    }
  }

  /**
    A document whose tag callbacks are properly nested fails exactly when some
    tag opens a scope with an all-slash `itemtype`. Otherwise it ends with both
    stacks empty, no capture, no pending property and an empty buffer; the
    first notification is `startParsing` and the last is `endParsing` carrying
    the number of `foundItemtype` notifications before it, as a Java `int`.
   */
  lemma DocumentBalanced(parse: JsonParser, body: seq<Event>)
    requires WellNested(body)
    ensures ParseDocument(parse, body).Thrown? <==> exists i :: 0 <= i < |body| && BadItemtype(body[i])
    ensures ParseDocument(parse, body).Thrown? ==> ParseDocument(parse, body).error == IndexOutOfBounds
    ensures ParseDocument(parse, body).Continue? ==>
      var t := ParseDocument(parse, body).state;
      && t.tagTypes == [] && t.items == [] && !t.containsJsonld
      && t.propertyName.None? && t.buffer == ""
      && |t.trace| >= 2 && t.trace[0] == StartParsing
      && t.trace[|t.trace| - 1] == EndParsing(Wrap32(TypeCount(t.trace[..|t.trace| - 1])))
      && t.totalItemtypes == t.trace[|t.trace| - 1].numItemtypes
  {
    assert Aligned(Started, []);
    RunAligned(parse, Started, [], body);
    RunExtendsTrace(parse, Started, body);
    DocumentRun(parse, body);
    var mid := Run(parse, Started, body);
    if mid.Continue? {
      var m := mid.state;
      var t := m.(trace := m.trace + [EndParsing(m.totalItemtypes)]);
      assert t.trace[..|t.trace| - 1] == m.trace;
      assert m.items == [] by {
        assert MicrodataDepth(m.tagTypes) == |m.items|;
      }
      assert t.trace[0] == m.trace[0] == Started.trace[0];
    }
  }

  /**
    `Parser.parse` hands every document to the one handler it was built with,
    and nothing resets the counter. A second document starts from the state
    the first one left: its notifications follow the first document's, and its
    `endParsing` counts the first document's item types as well as its own.
   */
  lemma ReusedHandler(parse: JsonParser, first: seq<Event>, second: seq<Event>)
    requires ParseDocument(parse, first).Continue?
    ensures var h := ParseDocument(parse, first).state;
      var r := Run(parse, h, [StartDocument] + second + [EndDocument]);
      r.Continue? ==>
        var t := r.state.trace;
        && |h.trace| < |t| && t[..|h.trace|] == h.trace
        && t[|t| - 1] == EndParsing(Wrap32(TypeCount(h.trace) + TypeCount(t[|h.trace|..|t| - 1])))
  {
    var h := ParseDocument(parse, first).state;
    assert Valid(h) by {
      InitValid();
      RunValid(parse, Init, [StartDocument] + first + [EndDocument]);
    }
    RunAppend(parse, h, [StartDocument] + second, [EndDocument]);
    var mid := Run(parse, h, [StartDocument] + second);
    if mid.Continue? {
      var m := mid.state;
      RunValid(parse, h, [StartDocument] + second);
      RunExtendsTrace(parse, h, [StartDocument] + second);
      assert TypeCount(m.trace) == TypeCount(h.trace) + TypeCount(m.trace[|h.trace|..]) by {
        assert m.trace == h.trace + m.trace[|h.trace|..];
        CountsAppend(h.trace, m.trace[|h.trace|..]);
      }
      var t := m.trace + [EndParsing(m.totalItemtypes)];
      assert Run(parse, m, [EndDocument]) == Continue(m.(trace := t));
      assert t[|h.trace|..|t| - 1] == m.trace[|h.trace|..];
    }
  }
}

=== FILE: java_int.dfy ===
/** Java's 32-bit `int`, as used for the running item-type counter. */
module JavaInt {

  const INT_MIN: int := -0x8000_0000
  const INT_MAX: int := 0x7FFF_FFFF
  const TWO_32: int := 0x1_0000_0000

  predicate InRange(x: int) {
    INT_MIN <= x <= INT_MAX
  }

  /** The `int` a mathematical integer becomes after two's-complement wrap-around. */
  function Wrap32(x: int): (r: int)
    ensures InRange(r)
    ensures (x - r) % TWO_32 == 0
    ensures InRange(x) ==> r == x
  {
    (x - INT_MIN) % TWO_32 + INT_MIN
  }

  /** `x++` on a Java `int`: `INT_MAX` steps to `INT_MIN`. */
  function Inc32(x: int): (r: int)
    ensures InRange(x) ==> InRange(r)
    ensures x == INT_MAX ==> r == INT_MIN
    ensures INT_MIN <= x < INT_MAX ==> r == x + 1
  {
    Wrap32(x + 1)
  }

  /** Counting by `++` from 0 yields the wrapped count: after `n` increments the counter is `Wrap32(n)`. */
  lemma Inc32OfWrap(n: int)
    ensures Inc32(Wrap32(n)) == Wrap32(n + 1)
  {
    var w := Wrap32(n);
    var q := (n - INT_MIN) / TWO_32;
    assert n - INT_MIN == q * TWO_32 + (w - INT_MIN);
    assert (n + 1) - INT_MIN == q * TWO_32 + (w + 1 - INT_MIN);
    if w < INT_MAX {
      assert Wrap32(n + 1) == w + 1;
    } else {
      assert (n + 1) - INT_MIN == (q + 1) * TWO_32;
    }
  }

  /** Adding to a wrapped value wraps the same as adding to the original. */
  lemma WrapAdd(a: int, n: int)
    ensures Wrap32(Wrap32(a) + n) == Wrap32(a + n)
  {
    var q := (a - INT_MIN) / TWO_32;
    assert a - INT_MIN == q * TWO_32 + (Wrap32(a) - INT_MIN);
    assert a + n - INT_MIN == q * TWO_32 + (Wrap32(a) + n - INT_MIN);
    ModShift(Wrap32(a) + n - INT_MIN, q);
  }

  lemma ModShift(x: int, q: int)
    ensures (q * TWO_32 + x) % TWO_32 == x % TWO_32
  {
    var r := x % TWO_32;
    var d := x / TWO_32;
    assert x == d * TWO_32 + r;
    assert q * TWO_32 + x == (q + d) * TWO_32 + r;
  }
}

=== FILE: java_text.dfy ===
/**
  The three pieces of `java.lang.String` behaviour the handler depends on:
  `equalsIgnoreCase`, `trim` and `split` with a one-character separator
  (followed by taking the last element of the resulting array).
 */
module JavaText {
  import opened Wrappers

  // ---------------------------------------------------------------------
  // equalsIgnoreCase
  // ---------------------------------------------------------------------

  /** `Character.toUpperCase` restricted to the characters whose upper case is an ASCII letter. */
  function ToUpper(c: char): char {
    if 'a' <= c <= 'z' then (c as int - 32) as char
    else if c == '\U{131}' then 'I'      // dotless i
    else if c == '\U{17F}' then 'S'      // long s
    else c
  }

  /** `Character.toLowerCase` restricted to the characters whose lower case is an ASCII letter. */
  function ToLower(c: char): char {
    if 'A' <= c <= 'Z' then (c as int + 32) as char
    else if c == '\U{130}' then 'i'      // capital I with dot above
    else if c == '\U{212A}' then 'k'     // Kelvin sign
    else c
  }

  /** The per-character test of `String.regionMatches(true, ...)`: equal, equal upper cases, or equal lower cases of the upper cases. */
  predicate CharEqualsIgnoreCase(a: char, b: char) {
    a == b || ToUpper(a) == ToUpper(b) || ToLower(ToUpper(a)) == ToLower(ToUpper(b))
  }

  /** `a.equalsIgnoreCase(b)` for a non-null `b`. */
  predicate EqualsIgnoreCase(a: string, b: string) {
    |a| == |b| && forall i :: 0 <= i < |a| ==> CharEqualsIgnoreCase(a[i], b[i])
  }

  /** `a.equalsIgnoreCase(b)` where `b` may be null: a null argument never matches. */
  predicate EqualsIgnoreCaseOrNull(a: string, b: Option<string>) {
    b.Some? && EqualsIgnoreCase(a, b.value)
  }

  /** Case-insensitive comparison is symmetric, so which side holds the constant does not matter. */
  lemma EqualsIgnoreCaseSymmetric(a: string, b: string)
    ensures EqualsIgnoreCase(a, b) <==> EqualsIgnoreCase(b, a)
  {
  }

  predicate IsAscii(c: char) {
    c < '\U{80}'
  }

  predicate IsAsciiLetter(c: char) {
    'a' <= c <= 'z' || 'A' <= c <= 'Z'
  }

  /**
    The characters that match the ASCII character `a` ignoring case, written
    out: a letter matches its lower and upper forms, and `i`, `s` and `k` also
    the dotless i (U+0131), the capital I with dot above (U+0130), the long s
    (U+017F) and the Kelvin sign (U+212A); any other ASCII character matches
    only itself.
   */
  predicate AsciiCaseVariant(a: char, b: char)
    requires IsAscii(a)
  {
    if IsAsciiLetter(a) then
      var lower := if a <= 'Z' then (a as int + 32) as char else a;
      var upper := if a <= 'Z' then a else (a as int - 32) as char;
      || b == lower || b == upper
      || (lower == 'i' && (b == '\U{131}' || b == '\U{130}'))
      || (lower == 's' && b == '\U{17F}')
      || (lower == 'k' && b == '\U{212A}')
    else
      b == a
  }

  /** Against an ASCII character the case-insensitive test matches exactly its listed variants. */
  lemma AsciiCharEqualsIgnoreCase(a: char, b: char)
    requires IsAscii(a)
    ensures CharEqualsIgnoreCase(a, b) <==> AsciiCaseVariant(a, b)
  {
  }

  /**
    Comparing with an ASCII constant, as the handler always does: `equalsIgnoreCase`
    holds exactly when the lengths agree and each character is a listed variant.
   */
  lemma EqualsAsciiConstant(k: string, b: string)
    requires forall i :: 0 <= i < |k| ==> IsAscii(k[i])
    ensures EqualsIgnoreCase(k, b) <==>
      |k| == |b| && forall i :: 0 <= i < |k| ==> AsciiCaseVariant(k[i], b[i])
  {
    if |k| == |b| {
      forall i | 0 <= i < |k|
        ensures CharEqualsIgnoreCase(k[i], b[i]) <==> AsciiCaseVariant(k[i], b[i])
      {
        AsciiCharEqualsIgnoreCase(k[i], b[i]);
      }
    }
  }

  // ---------------------------------------------------------------------
  // trim
  // ---------------------------------------------------------------------

  /** `String.trim` removes every character at or below U+0020, not only "whitespace". */
  predicate IsTrimmable(c: char) {
    c <= ' '
  }

  /** Every character of `s` in `[i, j)` is trimmable. */
  predicate TrimmableIn(s: string, i: nat, j: nat)
    requires i <= j <= |s|
  {
    forall k :: i <= k < j ==> IsTrimmable(s[k])
  }

  /** Index of the first character at or after `i` that `trim` keeps (or `|s|`). */
  function SkipLeading(s: string, i: nat): (k: nat)
    requires i <= |s|
    ensures i <= k <= |s|
    ensures TrimmableIn(s, i, k)
    ensures k < |s| ==> !IsTrimmable(s[k])
    decreases |s| - i
  {
    if i < |s| && IsTrimmable(s[i]) then SkipLeading(s, i + 1) else i
  }

  /** End index after dropping trimmable characters from the right, never below `lo`. */
  function SkipTrailing(s: string, lo: nat, j: nat): (k: nat)
    requires lo <= j <= |s|
    ensures lo <= k <= j
    ensures TrimmableIn(s, k, j)
    ensures k > lo ==> !IsTrimmable(s[k - 1])
    decreases j
  {
    if j > lo && IsTrimmable(s[j - 1]) then SkipTrailing(s, lo, j - 1) else j
  }

  /** `s.trim()`, written as Java's two scanning loops. */
  function Trim(s: string): (r: string)
    ensures |r| <= |s|
  {
    var st := SkipLeading(s, 0);
    var len := SkipTrailing(s, st, |s|);
    s[st..len]
  }

  /**
    What it means for `s[i..j]` to be `s` trimmed: everything cut off on either
    side is trimmable, and the slice neither starts nor ends with a trimmable
    character.
   */
  predicate IsTrimSlice(s: string, i: nat, j: nat)
    requires i <= j <= |s|
  {
    TrimmableIn(s, 0, i) && TrimmableIn(s, j, |s|)
    && (i < j ==> !IsTrimmable(s[i]) && !IsTrimmable(s[j - 1]))
  }

  /** `Trim` cuts `s` at a trim slice, and every trim slice of `s` gives the same string. */
  lemma TrimCharacterized(s: string, i: nat, j: nat)
    requires i <= j <= |s|
    ensures var st := SkipLeading(s, 0); Trim(s) == s[st..SkipTrailing(s, st, |s|)] && IsTrimSlice(s, st, SkipTrailing(s, st, |s|))
    ensures IsTrimSlice(s, i, j) ==> s[i..j] == Trim(s)
  {
    var st := SkipLeading(s, 0);
    var len := SkipTrailing(s, st, |s|);
    assert IsTrimSlice(s, st, len);
    if IsTrimSlice(s, i, j) {
      if i == j {
        assert TrimmableIn(s, 0, |s|);
        SkipLeadingAllTrimmable(s, 0);
      } else {
        SkipLeadingStopsAt(s, 0, i);
        SkipTrailingStopsAt(s, i, |s|, j);
      }
    }
  }

  lemma {:induction false} SkipLeadingAllTrimmable(s: string, i: nat)
    requires i <= |s|
    requires TrimmableIn(s, i, |s|)
    ensures SkipLeading(s, i) == |s|
    decreases |s| - i
  {
    if i < |s| {
      SkipLeadingAllTrimmable(s, i + 1);
    }
  }

  lemma {:induction false} SkipLeadingStopsAt(s: string, i: nat, t: nat)
    requires i <= t < |s|
    requires TrimmableIn(s, i, t)
    requires !IsTrimmable(s[t])
    ensures SkipLeading(s, i) == t
    decreases t - i
  {
    if i < t {
      SkipLeadingStopsAt(s, i + 1, t);
    }
  }

  lemma {:induction false} SkipTrailingStopsAt(s: string, lo: nat, j: nat, t: nat)
    requires lo < t <= j <= |s|
    requires TrimmableIn(s, t, j)
    requires !IsTrimmable(s[t - 1])
    ensures SkipTrailing(s, lo, j) == t
    decreases j
  {
    if j > t {
      SkipTrailingStopsAt(s, lo, j - 1, t);
    }
  }

  /** Trimming twice changes nothing. */
  lemma TrimIdempotent(s: string)
    ensures Trim(Trim(s)) == Trim(s)
  {
    var st := SkipLeading(s, 0);
    var len := SkipTrailing(s, st, |s|);
    TrimCharacterized(s, st, len);
    var r := Trim(s);
    assert IsTrimSlice(r, 0, |r|);
    TrimCharacterized(r, 0, |r|);
  }

  // ---------------------------------------------------------------------
  // split
  // ---------------------------------------------------------------------

  /** Position of the last occurrence of `c` in `s`. */
  function LastIndexOf(s: string, c: char): (i: nat)
    requires c in s
    ensures i < |s| && s[i] == c
    ensures c !in s[i + 1..]
  {
    if s[|s| - 1] == c then |s| - 1
    else
      assert c in s[..|s| - 1] by {
        var k :| 0 <= k < |s| && s[k] == c;
        assert s[..|s| - 1][k] == c;
      }
      var i := LastIndexOf(s[..|s| - 1], c);
      assert s[i + 1..] == s[..|s| - 1][i + 1..] + [s[|s| - 1]];
      i
  }

  /** Every segment between separators, empty ones included (the raw result of a regex split before Java's clean-up). */
  function Segments(s: string, sep: char): (parts: seq<string>)
    ensures |parts| >= 1
    ensures forall p :: p in parts ==> sep !in p
    decreases |s|
  {
    if sep !in s then [s]
    else
      var i := LastIndexOf(s, sep);
      Segments(s[..i], sep) + [s[i + 1..]]
  }

  /** Glues segments back together with the separator between each pair. */
  function Join(parts: seq<string>, sep: char): string
    requires |parts| >= 1
  {
    if |parts| == 1 then parts[0]
    else Join(parts[..|parts| - 1], sep) + [sep] + parts[|parts| - 1]
  }

  /** Segmentation loses nothing: joining the segments gives the input back. */
  lemma {:induction false} JoinSegments(s: string, sep: char)
    ensures Join(Segments(s, sep), sep) == s
    decreases |s|
  {
    if sep in s {
      var i := LastIndexOf(s, sep);
      var parts := Segments(s, sep);
      JoinSegments(s[..i], sep);
      assert parts[..|parts| - 1] == Segments(s[..i], sep);
      assert s == s[..i] + [sep] + s[i + 1..];
    }
  }

  /** Java drops the empty strings at the end of a `split` result (limit 0). */
  function DropTrailingEmpty(parts: seq<string>): (r: seq<string>)
    ensures r <= parts
    ensures |r| > 0 ==> r[|r| - 1] != ""
  {
    if |parts| > 0 && parts[|parts| - 1] == "" then DropTrailingEmpty(parts[..|parts| - 1])
    else parts
  }

  /** `s.split(String.valueOf(sep))`: a string with no separator comes back whole, even when empty. */
  function JavaSplit(s: string, sep: char): seq<string> {
    if sep !in s then [s] else DropTrailingEmpty(Segments(s, sep))
  }

  /**
    `parts[parts.length - 1]` after `itemtype.split("/")`: the short type name.
    `None` is the `ArrayIndexOutOfBoundsException` thrown when the split is empty.
   */
  function ShortTypeName(itemtype: string): Option<string> {
    var parts := JavaSplit(itemtype, '/');
    if |parts| == 0 then None else Some(parts[|parts| - 1])
  }

  // An independent description of the short type name: strip the trailing
  // slashes, then keep what follows the last remaining slash.

  function StripTrailing(s: string, c: char): (r: string)
    ensures r <= s
    ensures |r| > 0 ==> r[|r| - 1] != c
  {
    if |s| > 0 && s[|s| - 1] == c then StripTrailing(s[..|s| - 1], c) else s
  }

  function AfterLast(s: string, c: char): (r: string)
    ensures c !in r
    ensures |r| <= |s| && r == s[|s| - |r|..]
  {
    if c in s then s[LastIndexOf(s, c) + 1..] else s
  }

  lemma {:induction false} DropSegmentsLast(s: string)
    ensures var d := DropTrailingEmpty(Segments(s, '/'));
            var w := StripTrailing(s, '/');
            (|d| == 0 <==> w == "") && (|d| > 0 ==> d[|d| - 1] == AfterLast(w, '/'))
    decreases |s|
  {
    if '/' !in s {
      if s != "" {
        assert s[|s| - 1] in s;
      }
    } else if s[|s| - 1] == '/' {
      SegmentsTrailingSep(s);
      DropSegmentsLast(s[..|s| - 1]);
    } else {
      SegmentsNoTrailingSep(s);
    }
  }

  lemma SegmentsTrailingSep(s: string)
    requires |s| > 0 && s[|s| - 1] == '/'
    ensures DropTrailingEmpty(Segments(s, '/')) == DropTrailingEmpty(Segments(s[..|s| - 1], '/'))
    ensures StripTrailing(s, '/') == StripTrailing(s[..|s| - 1], '/')
  {
    var x := Segments(s[..|s| - 1], '/');
    assert s[|s| - 1] in s;
    assert LastIndexOf(s, '/') == |s| - 1;
    assert Segments(s, '/') == x + [""];
    assert (x + [""])[..|x|] == x;
  }

  lemma SegmentsNoTrailingSep(s: string)
    requires '/' in s && s[|s| - 1] != '/'
    ensures DropTrailingEmpty(Segments(s, '/')) == Segments(s, '/')
    ensures StripTrailing(s, '/') == s
    ensures Segments(s, '/')[|Segments(s, '/')| - 1] == AfterLast(s, '/')
  {
    var i := LastIndexOf(s, '/');
    var tail := s[i + 1..];
    assert i < |s| - 1;
    assert tail[|tail| - 1] == s[|s| - 1];
    assert Segments(s, '/') == Segments(s[..i], '/') + [tail];
  }

  /** The split-based short name equals the strip-then-take-last description; in particular it is `None` exactly for a non-empty run of slashes. */
  lemma ShortTypeNameIsLastSegment(itemtype: string)
    ensures ShortTypeName(itemtype) ==
      (if itemtype == "" then Some("")
       else
         var w := StripTrailing(itemtype, '/');
         if w == "" then None else Some(AfterLast(w, '/')))
  {
    if '/' in itemtype {
      DropSegmentsLast(itemtype);
    } else if itemtype != "" {
      assert itemtype[|itemtype| - 1] in itemtype;
    }
  }

  /** A short type name never contains a slash and is empty only for an empty attribute; the exception happens exactly for a non-empty run of slashes. */
  lemma ShortTypeNameShape(itemtype: string)
    ensures ShortTypeName(itemtype).Some? ==>
      '/' !in ShortTypeName(itemtype).value && (ShortTypeName(itemtype).value == "" <==> itemtype == "")
    ensures ShortTypeName(itemtype).None? <==> itemtype != "" && forall i :: 0 <= i < |itemtype| ==> itemtype[i] == '/'
  {
    ShortTypeNameIsLastSegment(itemtype);
    var w := StripTrailing(itemtype, '/');
    if w != "" {
      AfterLastOfNonSep(w);
    }
    StripTrailingAllSep(itemtype);
  }

  lemma AfterLastOfNonSep(w: string)
    requires |w| > 0 && w[|w| - 1] != '/'
    ensures AfterLast(w, '/') != ""
  {
    if '/' in w {
      var i := LastIndexOf(w, '/');
      assert i < |w| - 1;
    }
  }

  lemma {:induction false} StripTrailingAllSep(s: string)
    ensures StripTrailing(s, '/') == "" <==> forall i :: 0 <= i < |s| ==> s[i] == '/'
  {
    if |s| > 0 && s[|s| - 1] == '/' {
      StripTrailingAllSep(s[..|s| - 1]);
      assert forall i :: 0 <= i < |s| - 1 ==> s[..|s| - 1][i] == s[i];
    }
  }
}

=== FILE: json.dfy ===
/**
  The generic JSON value the handler consumes and produces (Jackson's
  `JsonNode` tree). Its text grammar belongs to the external parser and is not
  modelled; only the shape of the tree matters here.
 */
module JsonValue {
  import opened Wrappers

  datatype Json =
    | JObject(fields: seq<(string, Json)>)   // ObjectNode: fields in insertion order
    | JArray(elems: seq<Json>)               // ArrayNode
    | JText(text: Option<string>)            // TextNode; `new TextNode(null)` holds no text
    | JOther                                 // any other value node: number, boolean, binary, POJO
    | JNull                                  // NullNode
    | JMissing                               // MissingNode

  /** `JsonNode.textValue()`: the text of a text node, null for every other kind of node. */
  function TextValue(j: Json): (r: Option<string>)
    ensures r.Some? ==> j.JText?
  {
    if j.JText? then j.text else None
  }

  /** The external JSON text parser (`ObjectMapper.readTree`); `None` stands for `JsonProcessingException`. */
  type JsonParser = string -> Option<Json>
}

=== FILE: json_ld_blocks.dfy ===
/**
  JSON-LD blocks: a `<script type="application/ld+json">` element holding
  only text. Its text is gathered however the tokenizer splits it and handed
  to the JSON parser at the close; a block that does not parse leaves no
  trace. The buffer is the one a pending microdata property also fills, so
  what the parser sees depends on the state the block opens in.
 */
module JsonLdBlocks {
  import opened JavaInt
  import opened JsonValue
  import opened Listener
  import opened TypeWalker
  import opened Wrappers
  import opened JavaText
  import opened Microdata
  import opened SaxHandler

  /** The text of a block, split into the chunks `characters` receives. */
  function Texts(chunks: seq<string>): (ev: seq<Event>)
    ensures |ev| == |chunks|
  {
    if |chunks| == 0 then [] else Texts(chunks[..|chunks| - 1]) + [Characters(chunks[|chunks| - 1])]
  }

  /** The text those chunks spell. */
  function Concat(chunks: seq<string>): string {
    if |chunks| == 0 then "" else Concat(chunks[..|chunks| - 1]) + chunks[|chunks| - 1]
  }

  /** A script element whose type is JSON-LD, holding only text. */
  predicate IsJsonLdScript(localName: string, qName: string, attrs: map<string, string>) {
    IsScript(localName, qName) && IsJsonLdType(attrs)
  }

  /** The callbacks for one block. */
  function Block(localName: string, qName: string, attrs: map<string, string>, chunks: seq<string>): seq<Event> {
    [StartElement(localName, qName, attrs)] + Texts(chunks) + [EndElement(localName, qName)]
  }

  /** Nothing is being captured and no property waits for text. */
  predicate Quiet(s: State) {
    !s.containsJsonld && s.propertyName.None? && s.buffer == ""
  }

  /** What a block whose text parses as `j` adds: its types, then itself, with the counter advanced by the number of types. */
  function Reported(s: State, j: Json): State {
    var names := TypeNames(j);
    s.(trace := s.trace + TypeNotes(names, JsonLd) + [FoundItem(j)],
       totalItemtypes := if |names| > 0 then Wrap32(s.totalItemtypes + |names|) else s.totalItemtypes)
  }

  /** While capturing, each chunk is appended to the buffer, so the buffer ends up holding the whole text. */
  lemma {:induction false} CaptureText(parse: JsonParser, s: State, chunks: seq<string>)
    requires s.containsJsonld
    ensures Run(parse, s, Texts(chunks)) == Continue(s.(buffer := s.buffer + Concat(chunks)))
    decreases |chunks|
  {
    if |chunks| == 0 {
      assert s.buffer + "" == s.buffer;
      assert Run(parse, s, []) == Continue(s);
    } else {
      var init := chunks[..|chunks| - 1];
      var last := chunks[|chunks| - 1];
      CaptureText(parse, s, init);
      RunAppend(parse, s, Texts(init), [Characters(last)]);
      var mid := s.(buffer := s.buffer + Concat(init));
      assert Run(parse, mid, [Characters(last)]) == Continue(mid.(buffer := mid.buffer + last));
      assert s.buffer + Concat(init) + last == s.buffer + Concat(chunks);
    }
  }

  /**
    A JSON-LD block opened while nothing is being captured. The parser is handed
    the text already in the buffer followed by the block's own text: a property
    waiting for its text shares the one buffer, so its text so far becomes part
    of the block. Either way the buffer is left empty. Text that does not parse
    changes nothing else; text that parses as `j` reports `j`'s types and then
    `j`, and changes nothing else.
   */
  lemma BlockRun(parse: JsonParser, s: State, l: string, q: string, attrs: map<string, string>, chunks: seq<string>)
    requires !s.containsJsonld && IsJsonLdScript(l, q, attrs)
    ensures parse(s.buffer + Concat(chunks)).None? ==>
      Run(parse, s, Block(l, q, attrs, chunks)) == Continue(s.(buffer := ""))
    ensures parse(s.buffer + Concat(chunks)).Some? ==>
      Run(parse, s, Block(l, q, attrs, chunks)) == Continue(Reported(s.(buffer := ""), parse(s.buffer + Concat(chunks)).value))
  {
    var capturing := s.(containsJsonld := true, tagTypes := s.tagTypes + [JsonLd]);
    var ev := Block(l, q, attrs, chunks);
    assert ev == [StartElement(l, q, attrs)] + (Texts(chunks) + [EndElement(l, q)]);
    assert ev[0] == StartElement(l, q, attrs) && ev[1..] == Texts(chunks) + [EndElement(l, q)];
    assert Step(parse, s, ev[0]) == Continue(capturing);
    RunAppend(parse, capturing, Texts(chunks), [EndElement(l, q)]);
    CaptureText(parse, capturing, chunks);
    CloseBlock(parse, s, l, q, s.buffer + Concat(chunks));
  }

  /** The close of a block whose start found `s` not capturing and whose text made the buffer `text`. */
  lemma CloseBlock(parse: JsonParser, s: State, l: string, q: string, text: string)
    requires IsScript(l, q)
    ensures var full := s.(containsJsonld := true, tagTypes := s.tagTypes + [JsonLd], buffer := text);
      && (parse(text).None? ==> Run(parse, full, [EndElement(l, q)]) == Continue(s.(buffer := "", containsJsonld := false)))
      && (parse(text).Some? ==>
            Run(parse, full, [EndElement(l, q)]) == Continue(Reported(s.(buffer := "", containsJsonld := false), parse(text).value)))
  {
    var full := s.(containsJsonld := true, tagTypes := s.tagTypes + [JsonLd], buffer := text);
    assert Run(parse, full, [EndElement(l, q)]) == EndJsonLd(parse, full);
    assert full.tagTypes[..|full.tagTypes| - 1] == s.tagTypes;
    match parse(text)
    case None =>
    case Some(j) =>
      var reported := ReportAll(full, TypeNames(j), JsonLd);
      assert EndJsonLd(parse, full) == Continue(Reported(s.(buffer := "", containsJsonld := false), j));
  }

  /** From a quiet state a block is parsed on its own text alone. */
  lemma QuietBlockRun(parse: JsonParser, s: State, l: string, q: string, attrs: map<string, string>, chunks: seq<string>)
    requires Quiet(s) && IsJsonLdScript(l, q, attrs)
    ensures parse(Concat(chunks)).None? ==> Run(parse, s, Block(l, q, attrs, chunks)) == Continue(s)
    ensures parse(Concat(chunks)).Some? ==>
      Run(parse, s, Block(l, q, attrs, chunks)) == Continue(Reported(s, parse(Concat(chunks)).value))
  {
    BlockRun(parse, s, l, q, attrs, chunks);
    assert s.buffer + Concat(chunks) == Concat(chunks);
    assert s.(buffer := "") == s;
  }

  /** A malformed block never suppresses a good sibling, whether it comes first or second. */
  lemma MalformedBlockIsolated(parse: JsonParser, s: State, bad: seq<Event>, good: seq<Event>,
                               l: string, q: string, badAttrs: map<string, string>, badText: seq<string>,
                               l': string, q': string, goodAttrs: map<string, string>, goodText: seq<string>)
    requires Quiet(s)
    requires IsJsonLdScript(l, q, badAttrs) && bad == Block(l, q, badAttrs, badText) && parse(Concat(badText)).None?
    requires IsJsonLdScript(l', q', goodAttrs) && good == Block(l', q', goodAttrs, goodText)
    ensures Run(parse, s, bad + good) == Run(parse, s, good)
    ensures Run(parse, s, good + bad) == Run(parse, s, good)
  {
    QuietBlockRun(parse, s, l, q, badAttrs, badText);
    QuietBlockRun(parse, s, l', q', goodAttrs, goodText);
    RunAppend(parse, s, bad, good);
    RunAppend(parse, s, good, bad);
    var after := Run(parse, s, good).state;
    assert Quiet(after);
    QuietBlockRun(parse, after, l, q, badAttrs, badText);
  }

  // ---------------------------------------------------------------------
  // The shared buffer
  // ---------------------------------------------------------------------

  /** A parser that accepts exactly the text `{}`. */
  function OnlyEmptyObject(text: string): Option<Json> {
    if text == "{}" then Some(JObject([])) else None
  }

  /** `<script type="application/ld+json">` with the given text chunks. */
  function JsonLdScript(chunks: seq<string>): seq<Event> {
    Block(SCRIPT_TAG, SCRIPT_TAG, map[TYPE_ATTRIBUTE := JSONLD_SCRIPT_TYPE], chunks)
  }

  /** Inside `<div itemscope itemtype="Person"><span itemprop="name">Bob ` the span's property waits for its text. */
  const PendingName: State :=
    State([NewItem("Person")], [0], [Microdata, NoFormat], false, 1, "Bob ", Some("name"),
          [StartParsing, FoundItemtype(Some("Person"), Microdata)])

  /** The block `{}` alone: the parser is handed `Bob {}`, so nothing is reported and only the buffer is cleared. */
  lemma SpoiledBlock()
    ensures OnlyEmptyObject(Concat(["{}"])) == Some(JObject([]))
    ensures Run(OnlyEmptyObject, PendingName, JsonLdScript(["{}"])) == Continue(PendingName.(buffer := ""))
  {
    assert Concat(["{}"]) == "{}" by { assert ["{}"][..0] == []; }
    assert IsJsonLdScript(SCRIPT_TAG, SCRIPT_TAG, map[TYPE_ATTRIBUTE := JSONLD_SCRIPT_TYPE]);
    BlockRun(OnlyEmptyObject, PendingName, SCRIPT_TAG, SCRIPT_TAG, map[TYPE_ATTRIBUTE := JSONLD_SCRIPT_TYPE], ["{}"]);
    assert PendingName.buffer + Concat(["{}"]) == "Bob {}";
  }

  /** After the spoiled block the span closes with an empty buffer, so the property's value is the empty string. */
  lemma EmptiedProperty()
    ensures var t := Run(OnlyEmptyObject, PendingName, JsonLdScript(["{}"]) + [EndElement("span", "span")]);
      t.Continue? && |t.state.arena| == 1 && t.state.arena[0].props == AppendValue(NewItem("Person").props, "name", Str(Some("")))
  {
    SpoiledBlock();
    var quiet := PendingName.(buffer := "");
    RunAppend(OnlyEmptyObject, PendingName, JsonLdScript(["{}"]), [EndElement("span", "span")]);
    assert Trim("") == "";
    assert Run(OnlyEmptyObject, quiet, [EndElement("span", "span")]) == OnEndElement(OnlyEmptyObject, quiet, "span", "span");
  }

  /** A malformed block `{` just before takes `Bob ` with it, and then `{}` is reported. */
  lemma RescuedBySibling()
    ensures Run(OnlyEmptyObject, PendingName, JsonLdScript(["{"]) + JsonLdScript(["{}"])).state.trace
      == PendingName.trace + [FoundItem(JObject([]))]
  {
    var parse := OnlyEmptyObject;
    var a := map[TYPE_ATTRIBUTE := JSONLD_SCRIPT_TYPE];
    var quiet := PendingName.(buffer := "");
    assert IsJsonLdScript(SCRIPT_TAG, SCRIPT_TAG, a);
    assert Concat(["{}"]) == "{}" by { assert ["{}"][..0] == []; }
    assert Concat(["{"]) == "{" by { assert ["{"][..0] == []; }
    BlockRun(parse, PendingName, SCRIPT_TAG, SCRIPT_TAG, a, ["{"]);
    assert PendingName.buffer + Concat(["{"]) == "Bob {";
    BlockRun(parse, quiet, SCRIPT_TAG, SCRIPT_TAG, a, ["{}"]);
    assert quiet.buffer + Concat(["{}"]) == "{}";
    RunAppend(parse, PendingName, JsonLdScript(["{"]), JsonLdScript(["{}"]));
    assert TypeNames(JObject([])) == [];
  }

  /**
    A block opened while a property waits for its text. On its own the block's
    text `{}` parses, but the parser is handed `Bob {}`, so nothing is
    reported; when the span closes the property gets the empty string. With a
    malformed block `{` just before it, that block absorbs `Bob ` and the good
    block is reported after all, so a malformed sibling is harmless only from
    a quiet state.
   */
  lemma PendingTextSpoilsBlock()
    ensures OnlyEmptyObject(Concat(["{}"])) == Some(JObject([]))
    ensures Run(OnlyEmptyObject, PendingName, JsonLdScript(["{}"])) == Continue(PendingName.(buffer := ""))
    ensures var t := Run(OnlyEmptyObject, PendingName, JsonLdScript(["{}"]) + [EndElement("span", "span")]);
      t.Continue? && |t.state.arena| == 1 && t.state.arena[0].props == AppendValue(NewItem("Person").props, "name", Str(Some("")))
    ensures Run(OnlyEmptyObject, PendingName, JsonLdScript(["{"]) + JsonLdScript(["{}"])).state.trace
      == PendingName.trace + [FoundItem(JObject([]))]
    ensures Run(OnlyEmptyObject, PendingName, JsonLdScript(["{"]) + JsonLdScript(["{}"]))
      != Run(OnlyEmptyObject, PendingName, JsonLdScript(["{}"]))
  {
    SpoiledBlock();
    EmptiedProperty();
    RescuedBySibling();
  }
}

=== FILE: listener.dfy ===
/**
  The listener contract: the four notifications the handler sends, and the
  `Format` tag attached to item-type notifications. Every registered listener
  receives the same notifications in the same order, so the handler's output is
  one trace of them.
 */
module Listener {
  import opened Wrappers
  import opened JsonValue

  /** Which convention produced an item type, or (on the tag stack) what kind of tag is open. */
  datatype Format = JsonLd | Microdata | NoFormat

  datatype Notification =
    | StartParsing
    | EndParsing(numItemtypes: int)
    | FoundItemtype(itemtype: Option<string>, format: Format)
    | FoundItem(item: Json)

  /** Number of `foundItemtype` notifications in a trace. */
  function TypeCount(trace: seq<Notification>): (n: nat)
    ensures n <= |trace|
  {
    if |trace| == 0 then 0
    else TypeCount(trace[..|trace| - 1]) + (if trace[|trace| - 1].FoundItemtype? then 1 else 0)
  }

  /** Number of `foundItem` notifications in a trace. */
  function ItemCount(trace: seq<Notification>): (n: nat)
    ensures n <= |trace|
  {
    if |trace| == 0 then 0
    else ItemCount(trace[..|trace| - 1]) + (if trace[|trace| - 1].FoundItem? then 1 else 0)
  }

  /** Both counts distribute over concatenation of traces. */
  lemma {:induction false} CountsAppend(a: seq<Notification>, b: seq<Notification>)
    ensures TypeCount(a + b) == TypeCount(a) + TypeCount(b)
    ensures ItemCount(a + b) == ItemCount(a) + ItemCount(b)
    decreases |b|
  {
    if |b| > 0 {
      assert (a + b)[..|a + b| - 1] == a + b[..|b| - 1];
      CountsAppend(a, b[..|b| - 1]);
    } else {
      assert a + b == a;
    }
  }
}

=== FILE: microdata.dfy ===
/**
  Microdata items as the handler builds them. Java keeps `ObjectNode`s that a
  parent references and the handler keeps mutating; here every item lives in an
  arena (`seq<Item>`) and a nested item is referenced by its arena index.
 */
module Microdata {
  import opened Wrappers
  import opened JsonValue

  /** One element of a property's value list: a text node (possibly holding null) or a nested item. */
  datatype Val = Str(text: Option<string>) | Ref(index: nat)

  /** A property: its name and the list (an `ArrayNode`) of its values. */
  datatype Prop = Prop(name: string, values: seq<Val>)

  /** An item: its properties in insertion order (an `ObjectNode` backed by a linked hash map). */
  datatype Item = Item(props: seq<Prop>)

  /** Property names in insertion order. */
  function Keys(props: seq<Prop>): (ks: seq<string>)
    ensures |ks| == |props|
    ensures forall i :: 0 <= i < |props| ==> ks[i] == props[i].name
  {
    if |props| == 0 then [] else [props[0].name] + Keys(props[1..])
  }

  /** `item.get(name)` read as a list: the values stored under `name`, empty when it is absent. */
  function Lookup(props: seq<Prop>, name: string): seq<Val> {
    if |props| == 0 then []
    else if props[0].name == name then props[0].values
    else Lookup(props[1..], name)
  }

  /** Every value stored in an item, property by property. */
  function Vals(props: seq<Prop>): seq<Val> {
    if |props| == 0 then [] else props[0].values + Vals(props[1..])
  }

  predicate NoDuplicates(ks: seq<string>) {
    forall i, j :: 0 <= i < j < |ks| ==> ks[i] != ks[j]
  }

  /**
    Adds `v` at the end of the list stored under `name`, creating a singleton
    list at the end of the item when the name is new. Nothing is ever
    overwritten: the list under `name` grows by exactly `v`, every other list is
    untouched, and the first property keeps its name and its values as a prefix.
   */
  function AppendValue(props: seq<Prop>, name: string, v: Val): (r: seq<Prop>)
    ensures Lookup(r, name) == Lookup(props, name) + [v]
    ensures forall other :: other != name ==> Lookup(r, other) == Lookup(props, other)
    ensures |props| > 0 ==> |r| > 0 && r[0].name == props[0].name && props[0].values <= r[0].values
  {
    if |props| == 0 then
      [Prop(name, [v])]
    else if props[0].name == name then
      var r := [Prop(name, props[0].values + [v])] + props[1..];
      assert r[1..] == props[1..];
      r
    else
      var rest := AppendValue(props[1..], name, v);
      var r := [props[0]] + rest;
      assert r[1..] == rest;
      r
  }

  /** The key order only gains `name`, at the end, and only when it was missing. */
  lemma {:induction false} AppendValueKeys(props: seq<Prop>, name: string, v: Val)
    ensures Keys(AppendValue(props, name, v)) == if name in Keys(props) then Keys(props) else Keys(props) + [name]
    decreases |props|
  {
    if |props| > 0 {
      var r := AppendValue(props, name, v);
      assert r[1..] == if props[0].name == name then props[1..] else AppendValue(props[1..], name, v);
      assert Keys(props) == [props[0].name] + Keys(props[1..]);
      if props[0].name != name {
        AppendValueKeys(props[1..], name, v);
      }
    }
  }

  /** The item's values gain exactly `v`: nothing is dropped or duplicated. */
  lemma {:induction false} AppendValueVals(props: seq<Prop>, name: string, v: Val)
    ensures multiset(Vals(AppendValue(props, name, v))) == multiset(Vals(props)) + multiset{v}
    decreases |props|
  {
    if |props| > 0 {
      var r := AppendValue(props, name, v);
      if props[0].name == name {
        assert r[1..] == props[1..];
        assert Vals(r) == props[0].values + [v] + Vals(props[1..]);
      } else {
        assert r[1..] == AppendValue(props[1..], name, v);
        AppendValueVals(props[1..], name, v);
      }
    }
  }

  /** Appending a text value or a reference in range keeps an item inside a well-formed arena. */
  lemma AppendValueKeepsShape(item: Item, lo: nat, hi: nat, name: string, v: Val)
    requires RefsWithin(item, lo, hi) && Typed(item) && NoDuplicates(Keys(item.props))
    requires v.Ref? ==> lo < v.index < hi
    ensures var it := Item(AppendValue(item.props, name, v));
      RefsWithin(it, lo, hi) && Typed(it) && NoDuplicates(Keys(it.props))
  {
    var r := AppendValue(item.props, name, v);
    AppendValueVals(item.props, name, v);
    AppendValueKeys(item.props, name, v);
    forall x | x in Vals(r) && x.Ref?
      ensures lo < x.index < hi
    {
      assert x in multiset(Vals(r));
      assert x in multiset(Vals(item.props)) || x == v;
    }
  }

  /** The name of the type-list property every item starts with. */
  const TYPE_PROPERTY: string := "type"

  /** A freshly scoped item: only `"type"`, holding the one short type name. */
  function NewItem(typeName: string): (it: Item)
    ensures Keys(it.props) == [TYPE_PROPERTY]
    ensures Lookup(it.props, TYPE_PROPERTY) == [Str(Some(typeName))]
  {
    Item([Prop(TYPE_PROPERTY, [Str(Some(typeName))])])
  }

  // ---------------------------------------------------------------------
  // Per-tag value rule for a leaf `itemprop`
  // ---------------------------------------------------------------------

  /** The attribute a tag's property value is read from, keyed on the case-sensitive local name; `None` for the default rule. */
  function ValueAttribute(localName: string): Option<string> {
    match localName
    case "a" | "area" | "link" => Some("href")
    case "img" => Some("src")
    case "time" => Some("datetime")
    case "iframe" | "embed" | "object" => Some("data")
    case _ => None
  }

  /** Where a leaf property's value comes from: an attribute read now (possibly null), or the enclosed text later. */
  datatype LeafValue = Inline(value: Option<string>) | Deferred

  /**
    The rule table: a listed tag always yields its attribute, null when that
    attribute is absent; any other tag yields `content` when present and
    otherwise defers to the enclosed text.
   */
  function ResolveLeaf(localName: string, attrs: map<string, string>): (r: LeafValue)
    ensures r.Deferred? <==> ValueAttribute(localName).None? && "content" !in attrs
    ensures ValueAttribute(localName).Some? ==> r.Inline?
    // Null exactly when the rule's attribute is absent.
    ensures r.Inline? && r.value.None? <==> ValueAttribute(localName).Some? && ValueAttribute(localName).value !in attrs
    ensures r.Inline? && r.value.Some? ==>
      if ValueAttribute(localName).Some? then r.value.value == attrs[ValueAttribute(localName).value]
      else r.value.value == attrs["content"]
  {
    match ValueAttribute(localName)
    case Some(attr) => Inline(Get(attrs, attr))
    case None => if "content" in attrs then Inline(Some(attrs["content"])) else Deferred
  }

  // ---------------------------------------------------------------------
  // The arena and the JSON an item stands for
  // ---------------------------------------------------------------------

  /** Every nested-item reference in `item` points strictly between `lo` and `hi`. */
  predicate RefsWithin(item: Item, lo: nat, hi: nat) {
    forall x :: x in Vals(item.props) && x.Ref? ==> lo < x.index < hi
  }

  /** An item's first property is `"type"` and its list starts with a non-null name. */
  predicate Typed(item: Item) {
    |item.props| > 0 && item.props[0].name == TYPE_PROPERTY
    && |item.props[0].values| > 0 && item.props[0].values[0].Str? && item.props[0].values[0].text.Some?
  }

  /**
    The shape every arena reached by the handler has: references only point to
    later-created items (so the items form a forest), every item is typed, and
    property names are distinct.
   */
  predicate WellFormedArena(arena: seq<Item>) {
    forall i :: 0 <= i < |arena| ==>
      RefsWithin(arena[i], i, |arena|) && Typed(arena[i]) && NoDuplicates(Keys(arena[i].props))
  }

  /** The `ObjectNode` item `i` stands for, with nested items expanded. */
  function ToJson(arena: seq<Item>, i: nat): Json
    decreases |arena| - i, 2, 0
  {
    if i < |arena| then JObject(PropsToJson(arena, i, arena[i].props, |arena[i].props|)) else JMissing
  }

  /** The first `n` properties of item `i` as object entries holding arrays. */
  function PropsToJson(arena: seq<Item>, i: nat, props: seq<Prop>, n: nat): seq<(string, Json)>
    requires i < |arena| && n <= |props|
    decreases |arena| - i, 1, n
  {
    if n == 0 then []
    else PropsToJson(arena, i, props, n - 1) + [(props[n - 1].name, JArray(ValsToJson(arena, i, props[n - 1].values, |props[n - 1].values|)))]
  }

  /** The first `n` values of a list owned by item `i`: text nodes, or the nested items expanded. */
  function ValsToJson(arena: seq<Item>, i: nat, vals: seq<Val>, n: nat): seq<Json>
    requires i < |arena| && n <= |vals|
    decreases |arena| - i, 0, n
  {
    if n == 0 then []
    else
      var v := vals[n - 1];
      var j := match v
        case Str(t) => JText(t)
        case Ref(k) => if i < k < |arena| then ToJson(arena, k) else JMissing;
      ValsToJson(arena, i, vals, n - 1) + [j]
  }

  /** The JSON of an item keeps its property order, and the first entry is its `"type"` array. */
  lemma ToJsonShape(arena: seq<Item>, i: nat)
    requires WellFormedArena(arena) && i < |arena|
    ensures ToJson(arena, i).JObject?
    ensures |ToJson(arena, i).fields| == |arena[i].props|
    ensures forall k :: 0 <= k < |arena[i].props| ==> ToJson(arena, i).fields[k].0 == arena[i].props[k].name
    ensures ToJson(arena, i).fields[0].0 == TYPE_PROPERTY
    ensures ToJson(arena, i).fields[0].1 ==
      JArray(ValsToJson(arena, i, arena[i].props[0].values, |arena[i].props[0].values|))
    ensures var types := ToJson(arena, i).fields[0].1.elems;
      |types| > 0 && types[0] == JText(arena[i].props[0].values[0].text) && types[0].text.Some?
  {
    PropsToJsonShape(arena, i, arena[i].props, |arena[i].props|);
    var vals := arena[i].props[0].values;
    ValsToJsonShape(arena, i, vals, |vals|);
  }

  lemma {:induction false} PropsToJsonShape(arena: seq<Item>, i: nat, props: seq<Prop>, n: nat)
    requires i < |arena| && n <= |props|
    ensures |PropsToJson(arena, i, props, n)| == n
    ensures forall k :: 0 <= k < n ==>
      PropsToJson(arena, i, props, n)[k] == (props[k].name, JArray(ValsToJson(arena, i, props[k].values, |props[k].values|)))
    decreases n
  {
    if n > 0 {
      PropsToJsonShape(arena, i, props, n - 1);
    }
  }

  /** Each value of a list becomes one JSON element in place: text as text, a nested item expanded. */
  lemma {:induction false} ValsToJsonShape(arena: seq<Item>, i: nat, vals: seq<Val>, n: nat)
    requires i < |arena| && n <= |vals|
    ensures |ValsToJson(arena, i, vals, n)| == n
    ensures forall k :: 0 <= k < n && vals[k].Str? ==> ValsToJson(arena, i, vals, n)[k] == JText(vals[k].text)
    ensures forall k :: 0 <= k < n && vals[k].Ref? && i < vals[k].index < |arena| ==>
      ValsToJson(arena, i, vals, n)[k] == ToJson(arena, vals[k].index)
    decreases n
  {
    if n > 0 {
      ValsToJsonShape(arena, i, vals, n - 1);
    }
  }
}

=== FILE: parse_session.dfy ===
/**
  A parse as a client sees it: the handler's notifications delivered to a
  `DefaultListener`, read back through `getItems`, `totalItemtypes` and
  `isParsingFinished`.
 */
module ParseSession {
  import opened Wrappers
  import opened JavaText
  import opened JavaInt
  import opened JsonValue
  import opened Listener
  import opened TypeWalker
  import opened Microdata
  import opened SaxHandler
  import opened HandlerInvariants
  import opened DocumentTree
  import opened JsonLdBlocks
  import opened DefaultListener

  /** What a default listener holds after the handler has seen the whole document. */
  function Session(parse: JsonParser, body: seq<Event>): Aggregate {
    Observe(ParseDocument(parse, body).state.trace)
  }

  /**
    After a properly nested document without an all-slash `itemtype`, the
    listener is finished, its total is the number of item types the handler
    reported (as a Java `int`), and its items are exactly the reported items in
    order.
   */
  lemma SessionResult(parse: JsonParser, body: seq<Event>)
    requires WellNested(body) && NoBadTypes(body)
    ensures var t := ParseDocument(parse, body).state.trace;
      && Session(parse, body).finished
      && Session(parse, body).total == Wrap32(TypeCount(t))
      && Session(parse, body).items == ItemsOf(t)
      && |Session(parse, body).items| == ItemCount(t)
  {
    var t := ParseDocument(parse, body).state.trace;
    assert |t| >= 2 && t[|t| - 1] == EndParsing(Wrap32(TypeCount(t[..|t| - 1]))) by {
      NoBadTypesAt(body);
      DocumentBalanced(parse, body);
    }
    var last := |t| - 1;
    assert TypeCount(t) == TypeCount(t[..last]) by {
      assert t == t[..last] + [t[last]];
      TypeCountSnoc(t[..last], t[last]);
    }
    assert LastEnd(t, last) && HasEnd(t);
    ObserveCharacterized(t);
  }

  /** An empty document: no items, a total of 0, finished. */
  lemma EmptyDocument(parse: JsonParser)
    ensures ParseDocument(parse, []).Continue?
    ensures Session(parse, []) == Aggregate([], 0, true)
  {
    UnannotatedDocument(parse, []);
    QuietNotifications([], StartParsing);
    assert [] + [StartParsing] == [StartParsing];
    EndParsingSets([StartParsing], 0);
    assert [StartParsing] + [EndParsing(0)] == [StartParsing, EndParsing(0)];
  }

  /** The listener-only scenario: start, one item, one item type, `endParsing(2)`. */
  lemma ListenerScenario()
    ensures Observe([StartParsing, FoundItem(JText(Some("blah"))),
                     FoundItemtype(Some("HotelReservation"), Microdata), EndParsing(2)])
      == Aggregate([JText(Some("blah"))], 2, true)
  {
    var blah := JText(Some("blah"));
    var hotel := FoundItemtype(Some("HotelReservation"), Microdata);
    QuietNotifications([], StartParsing);
    assert [] + [StartParsing] == [StartParsing];
    FoundItemAppends([StartParsing], blah);
    QuietNotifications([StartParsing, FoundItem(blah)], hotel);
    EndParsingSets([StartParsing, FoundItem(blah), hotel], 2);
    assert [StartParsing] + [FoundItem(blah)] == [StartParsing, FoundItem(blah)];
    assert [StartParsing, FoundItem(blah)] + [hotel] == [StartParsing, FoundItem(blah), hotel];
    assert [StartParsing, FoundItem(blah), hotel] + [EndParsing(2)] == [StartParsing, FoundItem(blah), hotel, EndParsing(2)];
  }

  /** A document consisting of one JSON-LD block whose text parses as `j`: one item, `j` itself, and `j`'s types counted. */
  lemma JsonLdDocument(parse: JsonParser, l: string, q: string, attrs: map<string, string>, chunks: seq<string>, j: Json)
    requires IsJsonLdScript(l, q, attrs) && parse(Concat(chunks)) == Some(j)
    ensures ParseDocument(parse, Block(l, q, attrs, chunks)).Continue?
    ensures Session(parse, Block(l, q, attrs, chunks)) == Aggregate([j], Wrap32(|TypeNames(j)|), true)
  {
    var body := Block(l, q, attrs, chunks);
    QuietBlockRun(parse, Started, l, q, attrs, chunks);
    DocumentRun(parse, body);
    var r := Reported(Started, j);
    var names := TypeNames(j);
    FoundItemAppends([StartParsing] + TypeNotes(names, JsonLd), j);
    EndParsingSets(r.trace, r.totalItemtypes);
    NotesObserveFresh(names);
  }

  /** Start and item-type notifications leave a fresh listener as it was. */
  lemma {:induction false} NotesObserveFresh(names: seq<Option<string>>)
    ensures Observe([StartParsing] + TypeNotes(names, JsonLd)) == Fresh
    decreases |names|
  {
    var t := [StartParsing] + TypeNotes(names, JsonLd);
    if |names| == 0 {
      assert t == [StartParsing];
      assert t[..0] == [];
    } else {
      var init := names[..|names| - 1];
      NotesObserveFresh(init);
      assert t == ([StartParsing] + TypeNotes(init, JsonLd)) + [FoundItemtype(names[|names| - 1], JsonLd)];
      QuietNotifications([StartParsing] + TypeNotes(init, JsonLd), FoundItemtype(names[|names| - 1], JsonLd));
    }
  }

  /** With a malformed block before or after it, a good block is still the one item, with the same total. */
  lemma MalformedSiblingIgnored(parse: JsonParser, l: string, q: string, goodAttrs: map<string, string>, goodText: seq<string>,
                                badAttrs: map<string, string>, badText: seq<string>)
    requires IsJsonLdScript(l, q, goodAttrs) && IsJsonLdScript(l, q, badAttrs) && parse(Concat(badText)).None?
    ensures var good := Block(l, q, goodAttrs, goodText);
      var bad := Block(l, q, badAttrs, badText);
      Session(parse, good + bad) == Session(parse, good) && Session(parse, bad + good) == Session(parse, good)
  {
    var good := Block(l, q, goodAttrs, goodText);
    var bad := Block(l, q, badAttrs, badText);
    MalformedBlockIsolated(parse, Started, bad, good, l, q, badAttrs, badText, l, q, goodAttrs, goodText);
    DocumentRun(parse, good);
    DocumentRun(parse, good + bad);
    DocumentRun(parse, bad + good);
  }

  // ---------------------------------------------------------------------
  // The restaurant-reservation block
  // ---------------------------------------------------------------------

  function JStr(s: string): Json {
    JText(Some(s))
  }

  /** The reservation the JSON-LD example describes, with four typed objects nested in it. */
  const Reservation: Json :=
    JObject([
      ("@context", JStr("http://schema.org")),
      ("@type", JStr("FoodEstablishmentReservation")),
      ("reservationNumber", JStr("OT12345")),
      ("reservationStatus", JStr("http://schema.org/Confirmed")),
      ("underName", Guest),
      ("reservationFor", Restaurant),
      ("startTime", JStr("2017-04-10T08:00:00+00:00")),
      ("partySize", JStr("2"))])

  const Guest: Json := JObject([("@type", JStr("Person")), ("name", JStr("John Smith"))])

  const Restaurant: Json :=
    JObject([
      ("@type", JStr("FoodEstablishment")),
      ("name", JStr("Wagamama")),
      ("address", RestaurantAddress)])

  const RestaurantAddress: Json :=
    JObject([
      ("@type", JStr("PostalAddress")),
      ("streetAddress", JStr("1 Tavistock Street")),
      ("addressLocality", JStr("London")),
      ("addressRegion", JStr("Greater London")),
      ("postalCode", JStr("WC2E 7PG")),
      ("addressCountry", JStr("United Kingdom"))])

  /** Entries whose keys are not `@type` and whose values are text add no names. */
  lemma {:induction false} UntypedEntries(fs: seq<(string, Json)>, lo: nat, hi: nat)
    requires lo <= hi <= |fs|
    requires forall k :: lo <= k < hi ==> |fs[k].0| != |TYPE_KEY| && fs[k].1.JText?
    ensures FieldTypeNames(fs, hi) == FieldTypeNames(fs, lo)
    decreases hi
  {
    if lo < hi {
      UntypedEntries(fs, lo, hi - 1);
      assert EntryTypeNames(fs[hi - 1]) == [];
    }
  }

  /** An object whose first entry is `@type` with a text value, followed only by untyped text entries. */
  lemma TypedLeafObject(fs: seq<(string, Json)>, name: string)
    requires |fs| > 0 && fs[0] == ("@type", JStr(name))
    requires forall k :: 1 <= k < |fs| ==> |fs[k].0| != |TYPE_KEY| && fs[k].1.JText?
    ensures FieldTypeNames(fs, |fs|) == [Some(name)]
  {
    assert IsTypeKey(fs[0].0);
    assert FieldTypeNames(fs, 1) == [Some(name)];
    UntypedEntries(fs, 1, |fs|);
  }

  lemma RestaurantTypes()
    ensures TypeNames(Restaurant) == [Some("FoodEstablishment"), Some("PostalAddress")]
  {
    var venue := Restaurant.fields;
    TypedLeafObject(RestaurantAddress.fields, "PostalAddress");
    assert |venue[2].0| != |TYPE_KEY|;
    assert EntryTypeNames(venue[2]) == [Some("PostalAddress")];
    assert FieldTypeNames(venue, 1) == [Some("FoodEstablishment")] by {
      assert IsTypeKey(venue[0].0);
    }
    assert EntryTypeNames(venue[1]) == [] by {
      assert |venue[1].0| != |TYPE_KEY|;
    }
    assert FieldTypeNames(venue, 3) == FieldTypeNames(venue, 1) + EntryTypeNames(venue[1]) + EntryTypeNames(venue[2]);
  }

  /** The reservation's own type comes from its second entry; the entries around it are untyped text. */
  lemma ReservationHead()
    ensures FieldTypeNames(Reservation.fields, 4) == [Some("FoodEstablishmentReservation")]
  {
    var fs := Reservation.fields;
    assert FieldTypeNames(fs, 1) == [] by {
      assert |fs[0].0| != |TYPE_KEY|;
    }
    assert EntryTypeNames(fs[1]) == [Some("FoodEstablishmentReservation")] by {
      assert IsTypeKey(fs[1].0);
    }
    UntypedEntries(fs, 2, 4);
  }

  /** The guest and the restaurant entries contribute the three nested types. */
  lemma ReservationNested()
    ensures EntryTypeNames(Reservation.fields[4]) == [Some("Person")]
    ensures EntryTypeNames(Reservation.fields[5]) == [Some("FoodEstablishment"), Some("PostalAddress")]
  {
    var fs := Reservation.fields;
    assert |fs[4].0| != |TYPE_KEY| && fs[4].1 == Guest;
    assert |fs[5].0| != |TYPE_KEY| && fs[5].1 == Restaurant;
    TypedLeafObject(Guest.fields, "Person");
    RestaurantTypes();
  }

  /** The walker finds the reservation's four types in document order. */
  lemma ReservationTypes()
    ensures TypeNames(Reservation) ==
      [Some("FoodEstablishmentReservation"), Some("Person"), Some("FoodEstablishment"), Some("PostalAddress")]
  {
    var fs := Reservation.fields;
    ReservationHead();
    ReservationNested();
    assert FieldTypeNames(fs, 6) == FieldTypeNames(fs, 4) + EntryTypeNames(fs[4]) + EntryTypeNames(fs[5]);
    UntypedEntries(fs, 6, 8);
  }



  /** A page whose only annotation is the reservation block: one item, the block itself, and four item types. */
  lemma ReservationDocument(parse: JsonParser, l: string, q: string, attrs: map<string, string>, chunks: seq<string>)
    requires IsJsonLdScript(l, q, attrs) && parse(Concat(chunks)) == Some(Reservation)
    ensures Session(parse, Block(l, q, attrs, chunks)) == Aggregate([Reservation], 4, true)
  {
    JsonLdDocument(parse, l, q, attrs, chunks, Reservation);
    ReservationTypes();
  }

  // ---------------------------------------------------------------------
  // The restaurant reservation as microdata
  // ---------------------------------------------------------------------

  /** `<meta itemprop="prop" content="value"/>`. */
  function Meta(prop: string, value: string): Node {
    Element("meta", "meta", map[ITEMPROP_ATTRIBUTE := prop, "content" := value], [])
  }

  /** A `div` with `itemscope` and the schema.org type `typeName`, attached under `prop` when one is given. */
  function ScopeDiv(prop: Option<string>, typeName: string, children: seq<Node>): Node {
    var scope := map[ITEMSCOPE_ATTRIBUTE := "", ITEMTYPE_ATTRIBUTE := "http://schema.org/" + typeName];
    Element("div", "div", if prop.Some? then scope[ITEMPROP_ATTRIBUTE := prop.value] else scope, children)
  }

  const PersonDiv: Node := ScopeDiv(Some("underName"), "Person", [Text(" "), Meta("name", "John Smith")])

  const AddressDiv: Node :=
    ScopeDiv(Some("address"), "PostalAddress", [
      Text("  "), Meta("streetAddress", "1 Tavistock Street"), Text("  "), Meta("addressLocality", "London"),
      Text("  "), Meta("addressRegion", "Greater London"), Text("  "), Meta("postalCode", "WC2E 7PG"),
      Text("  "), Meta("addressCountry", "United Kingdom")])

  const VenueDiv: Node :=
    ScopeDiv(Some("reservationFor"), "FoodEstablishment", [Text(" "), Meta("name", "Wagamama"), Text(" "), AddressDiv])

  /** The reservation's own properties before and after its two nested scopes. */
  const PageHead: seq<Node> := [Meta("reservationNumber", "OT12345"), StatusLink]
  const PageTail: seq<Node> := [Meta("startTime", "2017-04-10T08:00:00+00:00"), Meta("partySize", "2")]

  /** The microdata reservation page: one top-level item with three items nested in it. */
  const ReservationPage: Node :=
    ScopeDiv(None, "FoodEstablishmentReservation", PageHead + [PersonDiv, VenueDiv] + PageTail)

  /** The number of scope elements in a list of sibling subtrees. */
  function ScopesIn(cs: seq<Node>): nat {
    if |cs| == 0 then 0 else ScopeCount(cs[0]) + ScopesIn(cs[1..])
  }

  /** Children that are all plain make their parent's child list plain, with their scopes summed. */
  lemma {:induction false} AllChildrenPlain(parent: Node, k: nat)
    requires parent.Element? && k <= |parent.children|
    requires forall i :: 0 <= i < k ==> Plain(parent.children[i])
    ensures PlainChildren(parent, k) && ChildScopes(parent, k) == ScopesIn(parent.children[..k])
    decreases k
  {
    if k > 0 {
      AllChildrenPlain(parent, k - 1);
      var c := parent.children[k - 1];
      ScopesInAppend(parent.children[..k - 1], [c]);
      assert parent.children[..k] == parent.children[..k - 1] + [c];
      assert ScopesIn([c]) == ScopeCount(c) by { assert [c][1..] == []; }
    }
  }

  lemma {:induction false} ScopesInAppend(a: seq<Node>, b: seq<Node>)
    ensures ScopesIn(a + b) == ScopesIn(a) + ScopesIn(b)
    decreases |a|
  {
    if |a| == 0 {
      assert a + b == b;
    } else {
      assert (a + b)[0] == a[0] && (a + b)[1..] == a[1..] + b;
      ScopesInAppend(a[1..], b);
    }
  }

  /** A childless element that is not a script and carries no `itemscope`. */
  predicate EmptyLeaf(n: Node) {
    n.Element? && n.children == [] && !IsScript(n.localName, n.qName) && ITEMSCOPE_ATTRIBUTE !in n.attrs
  }

  lemma MetaLeaf(prop: string, value: string)
    ensures EmptyLeaf(Meta(prop, value))
  {
    assert !IsScript("meta", "meta") by {
      assert !CharEqualsIgnoreCase(SCRIPT_TAG[0], "meta"[0]);
    }
    assert ITEMSCOPE_ATTRIBUTE != ITEMPROP_ATTRIBUTE && ITEMSCOPE_ATTRIBUTE != "content" by {
      assert ITEMSCOPE_ATTRIBUTE[4] != ITEMPROP_ATTRIBUTE[4];
    }
  }

  /** A schema.org scope `div` opens an item and its type has a short name. */
  lemma ScopeDivTag(prop: Option<string>, typeName: string, children: seq<Node>)
    ensures var n := ScopeDiv(prop, typeName, children);
      && n.Element? && n.children == children && OpensScope(n.attrs)
      && !IsScript(n.localName, n.qName) && !BadItemtype(StartElement(n.localName, n.qName, n.attrs))
  {
    var itemtype := "http://schema.org/" + typeName;
    ShortTypeNameShape(itemtype);
    assert itemtype[0] == 'h';
    assert !IsScript("div", "div") by {
      assert !CharEqualsIgnoreCase(SCRIPT_TAG[0], "div"[0]);
    }
    assert ScopeDiv(prop, typeName, children).attrs[ITEMTYPE_ATTRIBUTE] == itemtype;
  }

  /** A `div` scope with a schema.org type is plain when its children are, and adds one scope to theirs. */
  lemma ScopeDivPlain(prop: Option<string>, typeName: string, children: seq<Node>)
    requires forall i :: 0 <= i < |children| ==> Plain(children[i])
    ensures Plain(ScopeDiv(prop, typeName, children))
    ensures ScopeCount(ScopeDiv(prop, typeName, children)) == 1 + ScopesIn(children)
  {
    var n := ScopeDiv(prop, typeName, children);
    ScopeDivTag(prop, typeName, children);
    AllChildrenPlain(n, |children|);
    assert children[..|children|] == children;
  }

  /** Text and empty leaves only: plain, and no scope among them. */
  lemma {:induction false} LeavesOnly(cs: seq<Node>)
    requires forall i :: 0 <= i < |cs| ==> cs[i].Text? || EmptyLeaf(cs[i])
    ensures forall i :: 0 <= i < |cs| ==> Plain(cs[i])
    ensures ScopesIn(cs) == 0
    decreases |cs|
  {
    forall i | 0 <= i < |cs|
      ensures Plain(cs[i]) && ScopeCount(cs[i]) == 0
    {
      if cs[i].Element? {
        assert !OpensScope(cs[i].attrs);
      }
    }
    if |cs| > 0 {
      LeavesOnly(cs[1..]);
    }
  }

  /** The page's callbacks: no script tag, no bad scope, four scope starts. */
  lemma PageEvents()
    ensures var ev := Forest([ReservationPage]);
      && ev == Flatten(ReservationPage) && NoScripts(ev) && NoBadTypes(ev) && NoJsonLd(ev) && ScopeStarts(ev) == 4
  {
    assert [ReservationPage][..0] == [];
    PagePlain();
    PlainEvents(ReservationPage);
  }

  lemma StartedValid()
    ensures Valid(Started) && ItemCount(Started.trace) == 0 && TypeCount(Started.trace) == 0
  {
    InitValid();
    TypeCountSnoc([], StartParsing);
    assert [] + [StartParsing] == [StartParsing];
    assert Started.trace[..0] == [];
  }

  /** The page's body announces one item type per scope and reports the outer item alone. */
  lemma ReservationBody(parse: JsonParser)
    ensures var r := Run(parse, Started, Forest([ReservationPage]));
      r.Continue? && ItemCount(r.state.trace) == 1 && TypeCount(r.state.trace) == 4
  {
    PageEvents();
    StartedValid();
    ScopeDivTag(None, "FoodEstablishmentReservation", ReservationPage.children);
    ScriptFreeNoBlockEnds(Started.containsJsonld, Flatten(ReservationPage));
    TopLevelItemReportedOnce(parse, Started, ReservationPage);
    RunCountsScopes(parse, Started, Flatten(ReservationPage));
  }

  /**
    The microdata reservation page: the listener ends with exactly one item,
    the outer reservation, and a total of four item types, one per scope, the
    three nested ones included.
   */
  lemma ReservationMicrodata(parse: JsonParser)
    ensures ParseDocument(parse, Forest([ReservationPage])).Continue?
    ensures var a := Session(parse, Forest([ReservationPage])); |a.items| == 1 && a.total == 4 && a.finished
  {
    var body := Forest([ReservationPage]);
    ReservationBody(parse);
    ForestWellNested([ReservationPage]);
    PagePlain();
    PlainEvents(ReservationPage);
    assert body == Flatten(ReservationPage) by {
      assert [ReservationPage][..0] == [];
    }
    SessionResult(parse, body);
    DocumentRun(parse, body);
    var m := Run(parse, Started, body).state;
    CountsAppend(m.trace, [EndParsing(m.totalItemtypes)]);
    assert [EndParsing(m.totalItemtypes)][..0] == [];
    assert Wrap32(4) == 4;
  }

  lemma PersonPlain()
    ensures Plain(PersonDiv) && ScopeCount(PersonDiv) == 1
  {
    MetaLeaf("name", "John Smith");
    var kids := [Text(" "), Meta("name", "John Smith")];
    LeavesOnly(kids);
    ScopeDivPlain(Some("underName"), "Person", kids);
  }

  lemma AddressPlain()
    ensures Plain(AddressDiv) && ScopeCount(AddressDiv) == 1
  {
    var kids := AddressDiv.children;
    MetaLeaf("streetAddress", "1 Tavistock Street");
    MetaLeaf("addressLocality", "London");
    MetaLeaf("addressRegion", "Greater London");
    MetaLeaf("postalCode", "WC2E 7PG");
    MetaLeaf("addressCountry", "United Kingdom");
    LeavesOnly(kids);
    ScopeDivPlain(Some("address"), "PostalAddress", kids);
  }

  lemma VenuePlain()
    ensures Plain(VenueDiv) && ScopeCount(VenueDiv) == 2
  {
    AddressPlain();
    MetaLeaf("name", "Wagamama");
    var leaves := [Text(" "), Meta("name", "Wagamama"), Text(" ")];
    LeavesOnly(leaves);
    ScopesInAppend(leaves, [AddressDiv]);
    assert ScopesIn([AddressDiv]) == 1 by { assert [AddressDiv][1..] == []; }
    assert VenueDiv.children == leaves + [AddressDiv];
    ScopeDivPlain(Some("reservationFor"), "FoodEstablishment", leaves + [AddressDiv]);
  }

  const StatusLink: Node :=
    Element("link", "link", map[ITEMPROP_ATTRIBUTE := "reservationStatus", "href" := "http://schema.org/Confirmed"], [])

  /** The page's leaves before and after its two nested scopes. */
  lemma PageLeaves()
    ensures (forall i :: 0 <= i < |PageHead| ==> Plain(PageHead[i])) && ScopesIn(PageHead) == 0
    ensures (forall i :: 0 <= i < |PageTail| ==> Plain(PageTail[i])) && ScopesIn(PageTail) == 0
  {
    assert EmptyLeaf(StatusLink) by {
      assert !CharEqualsIgnoreCase(SCRIPT_TAG[0], "link"[0]);
      assert ITEMSCOPE_ATTRIBUTE[4] != ITEMPROP_ATTRIBUTE[4];
    }
    MetaLeaf("reservationNumber", "OT12345");
    MetaLeaf("startTime", "2017-04-10T08:00:00+00:00");
    MetaLeaf("partySize", "2");
    LeavesOnly(PageHead);
    LeavesOnly(PageTail);
  }

  /** The two nested scopes directly under the page: plain, three scopes between them. */
  lemma PageScopes()
    ensures var mid := [PersonDiv, VenueDiv];
      (forall i :: 0 <= i < |mid| ==> Plain(mid[i])) && ScopesIn(mid) == 3
  {
    PersonPlain();
    VenuePlain();
    ScopesInAppend([PersonDiv], [VenueDiv]);
    assert [PersonDiv][1..] == [] && [VenueDiv][1..] == [];
    assert [PersonDiv, VenueDiv] == [PersonDiv] + [VenueDiv];
  }

  /** Sibling lists of plain subtrees stay plain when joined, and their scopes add up. */
  lemma PlainJoin(a: seq<Node>, b: seq<Node>)
    requires forall i :: 0 <= i < |a| ==> Plain(a[i])
    requires forall i :: 0 <= i < |b| ==> Plain(b[i])
    ensures forall i :: 0 <= i < |a + b| ==> Plain((a + b)[i])
    ensures ScopesIn(a + b) == ScopesIn(a) + ScopesIn(b)
  {
    ScopesInAppend(a, b);
    forall i | 0 <= i < |a + b|
      ensures Plain((a + b)[i])
    {
      if i >= |a| {
        assert (a + b)[i] == b[i - |a|];
      }
    }
  }

  /** The page's children are plain and hold three scopes between them. */
  lemma PageChildren()
    ensures var kids := PageHead + [PersonDiv, VenueDiv] + PageTail;
      (forall i :: 0 <= i < |kids| ==> Plain(kids[i])) && ScopesIn(kids) == 3
  {
    PageLeaves();
    PageScopes();
    PlainJoin(PageHead, [PersonDiv, VenueDiv]);
    PlainJoin(PageHead + [PersonDiv, VenueDiv], PageTail);
  }

  /** The page is plain, with its four scopes. */
  lemma PagePlain()
    ensures Plain(ReservationPage) && ScopeCount(ReservationPage) == 4
  {
    PageChildren();
    ScopeDivPlain(None, "FoodEstablishmentReservation", PageHead + [PersonDiv, VenueDiv] + PageTail);
  }
}

=== FILE: sax_handler.dfy ===
/**
  The SAX handler (`InternalSaxHandler`) as a pure state machine: one state
  record, one transition per SAX callback, and the notifications sent to the
  listeners appended to a trace.
 */
module SaxHandler {
  import opened Wrappers
  import opened JavaText
  import opened JavaInt
  import opened JsonValue
  import opened Listener
  import opened TypeWalker
  import opened Microdata

  /** The SAX callbacks the tokenizer delivers, in document order. */
  datatype Event =
    | StartDocument
    | EndDocument
    | StartElement(localName: string, qName: string, attrs: map<string, string>)
    | EndElement(localName: string, qName: string)
    | Characters(text: string)

  const SCRIPT_TAG: string := "script"
  const JSONLD_SCRIPT_TYPE: string := "application/ld+json"
  const TYPE_ATTRIBUTE: string := "type"
  const ITEMSCOPE_ATTRIBUTE: string := "itemscope"
  const ITEMTYPE_ATTRIBUTE: string := "itemtype"
  const ITEMPROP_ATTRIBUTE: string := "itemprop"

  /**
    The handler's fields. `items` is the stack of open items (arena indices,
    innermost last), `tagTypes` has one entry per open tag, `propertyName` is a
    property waiting for the enclosed text, `buffer` the shared text buffer, and
    `trace` what every listener has been told so far.
   */
  datatype State = State(
    arena: seq<Item>,
    items: seq<nat>,
    tagTypes: seq<Format>,
    containsJsonld: bool,
    totalItemtypes: int,
    buffer: string,
    propertyName: Option<string>,
    trace: seq<Notification>)

  /** The state the constructor leaves. */
  const Init: State := State([], [], [], false, 0, "", None, [])

  /** The runtime exceptions a callback can throw. */
  datatype HandlerError =
    | EmptyStack              // `Stack.pop` on an empty `tagTypes`
    | NoSuchElement           // `LinkedList.removeLast` on an empty `items`
    | IndexOutOfBounds        // `itemtypeArray[length - 1]` on an empty split

  /** A callback either returns normally or throws; `state` is what the listeners had seen by then. */
  datatype Outcome = Continue(state: State) | Thrown(state: State, error: HandlerError)

  /** A tag is a script tag when its qualified or local name is `script`, ignoring case. */
  predicate IsScript(localName: string, qName: string) {
    EqualsIgnoreCase(SCRIPT_TAG, qName) || EqualsIgnoreCase(SCRIPT_TAG, localName)
  }

  /** `<script type="application/ld+json">`, the type compared ignoring case. */
  predicate IsJsonLdType(attrs: map<string, string>) {
    EqualsIgnoreCaseOrNull(JSONLD_SCRIPT_TYPE, Get(attrs, TYPE_ATTRIBUTE))
  }

  /** Both `itemscope` and `itemtype` present: the tag opens a new item. */
  predicate OpensScope(attrs: map<string, string>) {
    ITEMSCOPE_ATTRIBUTE in attrs && ITEMTYPE_ATTRIBUTE in attrs
  }

  /** Every open item is an arena index (the handler keeps this; see the invariants module). */
  predicate OpenItemsInArena(s: State) {
    forall i :: 0 <= i < |s.items| ==> s.items[i] < |s.arena|
  }

  /** A tag that names a property of the current item without opening a new one. */
  predicate IsLeafProperty(s: State, localName: string, qName: string, attrs: map<string, string>) {
    !IsScript(localName, qName) && !OpensScope(attrs) && ITEMPROP_ATTRIBUTE in attrs && |s.items| > 0
  }

  /** The index of the innermost open item (`items.getLast()`). */
  function Current(s: State): nat
    requires |s.items| > 0
  {
    s.items[|s.items| - 1]
  }

  /** Appends `v` under `name` to arena item `i` (a no-op for an index outside the arena). */
  function AppendTo(arena: seq<Item>, i: nat, name: string, v: Val): (r: seq<Item>)
    ensures |r| == |arena|
    ensures forall k :: 0 <= k < |arena| && k != i ==> r[k] == arena[k]
    ensures i < |arena| ==> r[i].props == AppendValue(arena[i].props, name, v)
  {
    if i < |arena| then arena[i := Item(AppendValue(arena[i].props, name, v))] else arena
  }

  /** `foundItemtype`: count the type and tell every listener. */
  function ReportItemtype(s: State, itemtype: Option<string>, format: Format): State {
    s.(totalItemtypes := Inc32(s.totalItemtypes), trace := s.trace + [FoundItemtype(itemtype, format)])
  }

  /** The notifications `foundItemtype` sends for a list of names, in order. */
  function TypeNotes(names: seq<Option<string>>, format: Format): (ns: seq<Notification>)
    ensures |ns| == |names|
    ensures forall i :: 0 <= i < |names| ==> ns[i] == FoundItemtype(names[i], format)
  {
    seq(|names|, i requires 0 <= i < |names| => FoundItemtype(names[i], format))
  }

  /** `foundItemtype` called once per name, in order. */
  function ReportAll(s: State, names: seq<Option<string>>, format: Format): (r: State)
    ensures r.trace == s.trace + TypeNotes(names, format)
    ensures r == s.(totalItemtypes := r.totalItemtypes, trace := r.trace)
    ensures |names| > 0 ==> r.totalItemtypes == Wrap32(s.totalItemtypes + |names|)
    ensures |names| == 0 ==> r.totalItemtypes == s.totalItemtypes
  {
    if |names| == 0 then s
    else
      var prev := ReportAll(s, names[..|names| - 1], format);
      assert TypeNotes(names, format) == TypeNotes(names[..|names| - 1], format) + [FoundItemtype(names[|names| - 1], format)];
      Inc32OfWrap(s.totalItemtypes + |names| - 1);
      ReportItemtype(prev, names[|names| - 1], format)
  }

  // ---------------------------------------------------------------------
  // startElement
  // ---------------------------------------------------------------------

  /**
    `startElement`. A script tag pushes `JsonLd` (and starts capture when its
    type is JSON-LD). Otherwise a tag with `itemscope` and `itemtype` opens an
    item, attached to the current item under `itemprop` if both exist; a tag
    with only `itemprop` inside an item adds a leaf value or defers to its text;
    anything else pushes `NoFormat`.
   */
  function OnStartElement(s: State, localName: string, qName: string, attrs: map<string, string>): (r: Outcome)
    // Exactly one exception: an itemtype made only of slashes.
    ensures r.Thrown? <==>
      !IsScript(localName, qName) && OpensScope(attrs) && ShortTypeName(attrs[ITEMTYPE_ATTRIBUTE]).None?
    ensures r.Thrown? ==> r.state == s && r.error == IndexOutOfBounds
    // Exactly one tag-type entry pushed, classified by the tag.
    ensures r.Continue? ==> |r.state.tagTypes| == |s.tagTypes| + 1 && r.state.tagTypes[..|s.tagTypes|] == s.tagTypes
    ensures r.Continue? ==> var top := r.state.tagTypes[|s.tagTypes|];
      (top == JsonLd <==> IsScript(localName, qName))
      && (top == Microdata <==> !IsScript(localName, qName) && OpensScope(attrs))
    // A new scope: a new typed item, pushed, counted once and reported once.
    ensures r.Continue? && r.state.tagTypes[|s.tagTypes|] == Microdata ==>
      var name := ShortTypeName(attrs[ITEMTYPE_ATTRIBUTE]).value;
      && r.state.items == s.items + [|s.arena|]
      && |r.state.arena| == |s.arena| + 1
      && (OpenItemsInArena(s) ==> r.state.arena[|s.arena|] == NewItem(name))
      && r.state.totalItemtypes == Inc32(s.totalItemtypes)
      && r.state.trace == s.trace + [FoundItemtype(Some(name), Microdata)]
    // Otherwise nothing is counted, reported, opened or created.
    ensures r.Continue? && r.state.tagTypes[|s.tagTypes|] != Microdata ==>
      && r.state.items == s.items && |r.state.arena| == |s.arena|
      && r.state.totalItemtypes == s.totalItemtypes && r.state.trace == s.trace
    // Only the current item can change; every other existing item is untouched.
    ensures r.Continue? ==> forall k :: 0 <= k < |s.arena| && (|s.items| == 0 || k != Current(s)) ==> r.state.arena[k] == s.arena[k]
    ensures r.Continue? ==> r.state.buffer == s.buffer
    // Capture starts only at a JSON-LD script tag and is never switched off here.
    ensures r.Continue? ==>
      r.state.containsJsonld == (s.containsJsonld || (IsScript(localName, qName) && IsJsonLdType(attrs)))
    // A new scope carrying `itemprop` inside an item is appended to the parent's list under that name;
    // any other new scope leaves every existing item as it was.
    ensures r.Continue? && r.state.tagTypes[|s.tagTypes|] == Microdata && OpenItemsInArena(s) ==>
      if ITEMPROP_ATTRIBUTE in attrs && |s.items| > 0 then
        r.state.arena[Current(s)].props ==
          AppendValue(s.arena[Current(s)].props, attrs[ITEMPROP_ATTRIBUTE], Ref(|s.arena|))
      else r.state.arena[..|s.arena|] == s.arena
    // A leaf property inside an item: the rule's inline value is appended, or the name waits for the text.
    ensures r.Continue? && IsLeafProperty(s, localName, qName, attrs) && OpenItemsInArena(s) ==>
      match ResolveLeaf(localName, attrs)
      case Inline(v) =>
        && r.state.arena[Current(s)].props == AppendValue(s.arena[Current(s)].props, attrs[ITEMPROP_ATTRIBUTE], Str(v))
        && r.state.propertyName == s.propertyName
      case Deferred =>
        r.state.arena == s.arena && r.state.propertyName == Some(attrs[ITEMPROP_ATTRIBUTE])
    // Any other tag leaves the items and the pending property alone.
    ensures r.Continue? && !IsLeafProperty(s, localName, qName, attrs) ==> r.state.propertyName == s.propertyName
    ensures r.Continue? && !IsLeafProperty(s, localName, qName, attrs) && r.state.tagTypes[|s.tagTypes|] != Microdata ==>
      r.state.arena == s.arena
  {
    if IsScript(localName, qName) then
      // Look for JSON-LD in <script type="application/ld+json">.
      Continue(s.(containsJsonld := s.containsJsonld || IsJsonLdType(attrs), tagTypes := s.tagTypes + [JsonLd]))
    else
      var itemprop := Get(attrs, ITEMPROP_ATTRIBUTE);
      if OpensScope(attrs) then
        match ShortTypeName(attrs[ITEMTYPE_ATTRIBUTE])
        case None => Thrown(s, IndexOutOfBounds)
        case Some(name) =>
          var k := |s.arena|;
          var created := s.arena + [NewItem(name)];
          var attached :=
            if itemprop.Some? && |s.items| > 0 then AppendTo(created, Current(s), itemprop.value, Ref(k))
            else created;
          var reported := ReportItemtype(s, Some(name), Microdata);
          Continue(reported.(arena := attached, items := s.items + [k], tagTypes := s.tagTypes + [Microdata]))
      else if itemprop.Some? && |s.items| > 0 then
        match ResolveLeaf(localName, attrs)
        case Inline(value) =>
          Continue(s.(arena := AppendTo(s.arena, Current(s), itemprop.value, Str(value)), tagTypes := s.tagTypes + [NoFormat]))
        case Deferred =>
          Continue(s.(propertyName := itemprop, tagTypes := s.tagTypes + [NoFormat]))
      else
        Continue(s.(tagTypes := s.tagTypes + [NoFormat]))
  }

  // ---------------------------------------------------------------------
  // endElement
  // ---------------------------------------------------------------------

  /** Pops one tag-type entry, or throws `EmptyStack`. */
  function PopTagType(s: State): (r: Outcome)
    ensures r.Thrown? <==> |s.tagTypes| == 0
    ensures r.Thrown? ==> r.state == s && r.error == EmptyStack
    ensures r.Continue? ==> r.state == s.(tagTypes := s.tagTypes[..|s.tagTypes| - 1])
  {
    if |s.tagTypes| == 0 then Thrown(s, EmptyStack) else Continue(s.(tagTypes := s.tagTypes[..|s.tagTypes| - 1]))
  }

  /** The end of a capturing script tag: parse the buffer and, if it is JSON, report its types and then the block as one item. */
  function EndJsonLd(parse: JsonParser, s: State): (r: Outcome)
    ensures r.state.containsJsonld == false && r.state.buffer == ""
    ensures r.state.items == s.items && r.state.arena == s.arena && r.state.propertyName == s.propertyName
    // A block that does not parse leaves no trace and is not counted.
    ensures parse(s.buffer).None? ==> r.state.trace == s.trace && r.state.totalItemtypes == s.totalItemtypes
    // A block that parses reports each of its types, then itself verbatim.
    ensures parse(s.buffer).Some? ==>
      var j := parse(s.buffer).value;
      r.state.trace == s.trace + TypeNotes(TypeNames(j), JsonLd) + [FoundItem(j)]
    // ... and counts each of those types once, as a Java int.
    ensures parse(s.buffer).Some? ==>
      var names := TypeNames(parse(s.buffer).value);
      r.state.totalItemtypes == if |names| == 0 then s.totalItemtypes else Wrap32(s.totalItemtypes + |names|)
    ensures r.Thrown? <==> |s.tagTypes| == 0
    // The only failure is the pop of an empty tag stack, which stays empty.
    ensures r.Thrown? ==> r.error == EmptyStack && r.state.tagTypes == s.tagTypes
    ensures r.Continue? ==> r.state.tagTypes == s.tagTypes[..|s.tagTypes| - 1]
  {
    match parse(s.buffer)
    case None =>
      // Malformed block: clean up, pop, and carry on with the document.
      PopTagType(s.(containsJsonld := false, buffer := ""))
    case Some(element) =>
      var reported := ReportAll(s, TypeNames(element), JsonLd);
      var notified := reported.(trace := reported.trace + [FoundItem(element)]);
      PopTagType(notified.(containsJsonld := false, buffer := ""))
  }

  /** A pending property takes the trimmed buffer as its value when a tag closes inside an item. */
  function FlushPending(s: State): (r: State)
    ensures s.propertyName.Some? && |s.items| > 0 ==>
      && r.propertyName.None? && r.buffer == ""
      && r.arena == AppendTo(s.arena, Current(s), s.propertyName.value, Str(Some(Trim(s.buffer))))
    ensures !(s.propertyName.Some? && |s.items| > 0) ==> r == s
    ensures r.items == s.items && r.tagTypes == s.tagTypes && r.trace == s.trace
      && r.totalItemtypes == s.totalItemtypes && r.containsJsonld == s.containsJsonld
  {
    if s.propertyName.Some? && |s.items| > 0 then
      var content := Trim(s.buffer);
      s.(arena := AppendTo(s.arena, Current(s), s.propertyName.value, Str(Some(content))),
         propertyName := None, buffer := "")
    else s
  }

  /**
    `endElement`. A script tag closing while capture is active ends the JSON-LD
    block. Any other end tag first gives a pending property its text, then pops
    one tag-type entry; popping `Microdata` closes the innermost item, which is
    reported as a finished top-level item when no item is left open.
   */
  function OnEndElement(parse: JsonParser, s: State, localName: string, qName: string): (r: Outcome)
    // The JSON-LD branch.
    ensures IsScript(localName, qName) && s.containsJsonld ==> r == EndJsonLd(parse, s)
    // Otherwise a pending property is consumed first, whatever tag is closing.
    ensures !(IsScript(localName, qName) && s.containsJsonld) && s.propertyName.Some? && |s.items| > 0 ==>
      r.state.propertyName.None? && r.state.buffer == ""
    // One tag-type entry popped; a `Microdata` entry takes exactly one item with it.
    ensures !(IsScript(localName, qName) && s.containsJsonld) && r.Continue? ==>
      && |s.tagTypes| > 0 && r.state.tagTypes == s.tagTypes[..|s.tagTypes| - 1]
      && (s.tagTypes[|s.tagTypes| - 1] == Microdata ==> |s.items| > 0 && r.state.items == s.items[..|s.items| - 1])
      && (s.tagTypes[|s.tagTypes| - 1] != Microdata ==> r.state.items == s.items)
    // The items are exactly as the pending property left them, whether the call returns or throws.
    ensures !(IsScript(localName, qName) && s.containsJsonld) ==> r.state.arena == FlushPending(s).arena
    // A finished item is reported exactly when it was the last open one, as it stands with its text filled in.
    ensures !(IsScript(localName, qName) && s.containsJsonld) && r.Continue? ==>
      if s.tagTypes[|s.tagTypes| - 1] == Microdata && |s.items| == 1 then
        r.state.trace == s.trace + [FoundItem(ToJson(FlushPending(s).arena, s.items[0]))]
      else r.state.trace == s.trace
    ensures !(IsScript(localName, qName) && s.containsJsonld) ==>
      r.state.totalItemtypes == s.totalItemtypes && r.state.containsJsonld == s.containsJsonld
    // With nothing pending, the pending name and the shared buffer are left alone.
    ensures !(IsScript(localName, qName) && s.containsJsonld) && !(s.propertyName.Some? && |s.items| > 0) ==>
      r.state.propertyName == s.propertyName && r.state.buffer == s.buffer
    // It throws exactly on an empty stack or a `Microdata` entry with no open item, before notifying anyone.
    ensures !(IsScript(localName, qName) && s.containsJsonld) ==>
      (r.Thrown? <==> |s.tagTypes| == 0 || (s.tagTypes[|s.tagTypes| - 1] == Microdata && |s.items| == 0))
    ensures !(IsScript(localName, qName) && s.containsJsonld) && r.Thrown? ==>
      && r.state.trace == s.trace && r.state.items == s.items
      && (|s.tagTypes| == 0 ==> r.error == EmptyStack && r.state.tagTypes == s.tagTypes)
      && (|s.tagTypes| > 0 ==> r.error == NoSuchElement && r.state.tagTypes == s.tagTypes[..|s.tagTypes| - 1])
  {
    if IsScript(localName, qName) && s.containsJsonld then
      EndJsonLd(parse, s)
    else
      var flushed := FlushPending(s);
      match PopTagType(flushed)
      case Thrown(t, e) => Thrown(t, e)
      case Continue(popped) =>
        if s.tagTypes[|s.tagTypes| - 1] == Microdata then
          if |popped.items| == 0 then Thrown(popped, NoSuchElement)
          else
            var closed := Current(popped);
            var rest := popped.(items := popped.items[..|popped.items| - 1]);
            if |rest.items| == 0 then Continue(rest.(trace := rest.trace + [FoundItem(ToJson(rest.arena, closed))]))
            else Continue(rest)
        else Continue(popped)
  }

  // ---------------------------------------------------------------------
  // characters, documents, runs
  // ---------------------------------------------------------------------

  /** `characters`: text is kept only while a JSON-LD block or a pending property wants it. */
  function OnCharacters(s: State, text: string): (r: State)
    ensures s.containsJsonld || s.propertyName.Some? ==> r.buffer == s.buffer + text
    ensures !(s.containsJsonld || s.propertyName.Some?) ==> r.buffer == s.buffer
    ensures r == s.(buffer := r.buffer)
  {
    if s.containsJsonld || s.propertyName.Some? then s.(buffer := s.buffer + text) else s
  }

  /** One SAX callback. */
  function Step(parse: JsonParser, s: State, e: Event): Outcome {
    match e
    case StartDocument => Continue(s.(trace := s.trace + [StartParsing]))
    case EndDocument => Continue(s.(trace := s.trace + [EndParsing(s.totalItemtypes)]))
    case StartElement(localName, qName, attrs) => OnStartElement(s, localName, qName, attrs)
    case EndElement(localName, qName) => OnEndElement(parse, s, localName, qName)
    case Characters(text) => Continue(OnCharacters(s, text))
  }

  /** A sequence of callbacks; an exception ends the run (it propagates out of the tokenizer). */
  function Run(parse: JsonParser, s: State, events: seq<Event>): Outcome
    decreases |events|
  {
    if |events| == 0 then Continue(s)
    else
      match Step(parse, s, events[0])
      case Continue(next) => Run(parse, next, events[1..])
      case Thrown(t, e) => Thrown(t, e)
  }

  /** A whole document: the tokenizer brackets the tag and text callbacks with start and end of document. */
  function ParseDocument(parse: JsonParser, body: seq<Event>): Outcome {
    Run(parse, Init, [StartDocument] + body + [EndDocument])
  }

  /** Running two sequences back to back is running their concatenation. */
  lemma {:induction false} RunAppend(parse: JsonParser, s: State, a: seq<Event>, b: seq<Event>)
    ensures Run(parse, s, a + b) ==
      match Run(parse, s, a)
      case Continue(t) => Run(parse, t, b)
      case Thrown(t, e) => Thrown(t, e)
    decreases |a|
  {
    if |a| == 0 {
      assert a + b == b;
    } else {
      assert (a + b)[0] == a[0];
      assert (a + b)[1..] == a[1..] + b;
      match Step(parse, s, a[0])
      case Continue(next) => RunAppend(parse, next, a[1..], b);
      case Thrown(t, e) =>
    }
  }
}

=== FILE: type_walker.dfy ===
/**
  The JSON-LD item-type walker (`InternalSaxHandler.parseJson`): every `@type`
  key of a parsed block outside an `@type` value yields one item-type name, in
  document order; an `@type` value is not searched further.
 */
module TypeWalker {
  import opened Wrappers
  import opened JavaText
  import opened JsonValue

  /** The reserved type-declaration key, compared ignoring case. */
  const TYPE_KEY: string := "@type"

  predicate IsTypeKey(key: string) {
    EqualsIgnoreCase(TYPE_KEY, key)
  }

  /**
    Reference description of the walk: the type names of a value in pre-order.
    Scalars, null and missing values have none; an array contributes its
    elements' names in order; an object contributes, entry by entry, the text of
    each `@type` entry (whose value is not searched further) or else the names
    found inside the entry's value.
   */
  function TypeNames(j: Json): seq<Option<string>>
    decreases j, 1
  {
    match j
    case JObject(fields) => FieldTypeNames(fields, |fields|)
    case JArray(elems) => ElemTypeNames(elems, |elems|)
    case _ => []
  }

  /** Type names of the first `n` entries of an object. */
  function FieldTypeNames(fields: seq<(string, Json)>, n: nat): seq<Option<string>>
    requires n <= |fields|
    decreases JObject(fields), 0, n
  {
    if n == 0 then []
    else
      var entry := fields[n - 1];
      assert entry in fields;
      FieldTypeNames(fields, n - 1) + EntryTypeNames(entry)
  }

  /** What one object entry contributes: its text if the key is `@type`, else the names inside its value. */
  function EntryTypeNames(entry: (string, Json)): seq<Option<string>>
    decreases entry, 2
  {
    if IsTypeKey(entry.0) then [TextValue(entry.1)] else TypeNames(entry.1)
  }

  /** Type names of the first `n` elements of an array. */
  function ElemTypeNames(elems: seq<Json>, n: nat): seq<Option<string>>
    requires n <= |elems|
    decreases JArray(elems), 0, n
  {
    if n == 0 then [] else ElemTypeNames(elems, n - 1) + TypeNames(elems[n - 1])
  }

  /**
    `parseJson` as the handler runs it: a recursive walk whose object and array
    cases iterate the entries in order. Returns the names it reports, in the
    order it reports them.
   */
  method ParseJson(element: Json) returns (names: seq<Option<string>>)
    ensures names == TypeNames(element)
    decreases element, 1
  {
    names := [];
    match element {
      case JObject(fields) =>
        var i := 0;
        while i < |fields|
          invariant 0 <= i <= |fields|
          invariant names == FieldTypeNames(fields, i)
        {
          var entry := fields[i];
          assert entry in fields;
          if IsTypeKey(entry.0) {
            names := names + [TextValue(entry.1)];
          } else {
            var inner := ParseJson(entry.1);
            names := names + inner;
          }
          i := i + 1;
        }
      case JArray(elems) =>
        var i := 0;
        while i < |elems|
          invariant 0 <= i <= |elems|
          invariant names == ElemTypeNames(elems, i)
        {
          var inner := ParseJson(elems[i]);
          names := names + inner;
          i := i + 1;
        }
      case _ =>
    }
  }

  /** Arrays are walked in order: the names of a concatenation are the names of the parts, in order. */
  lemma {:induction false} ElemTypeNamesAppend(a: seq<Json>, b: seq<Json>)
    ensures TypeNames(JArray(a + b)) == TypeNames(JArray(a)) + TypeNames(JArray(b))
    decreases |b|
  {
    if |b| == 0 {
      assert a + b == a;
    } else {
      var b' := b[..|b| - 1];
      ElemTypeNamesAppend(a, b');
      ElemPrefix(a + b, |a + b| - 1, a + b');
      ElemPrefix(b, |b| - 1, b');
    }
  }

  lemma {:induction false} ElemPrefix(elems: seq<Json>, n: nat, prefix: seq<Json>)
    requires n <= |elems| && prefix == elems[..n]
    ensures ElemTypeNames(elems, n) == ElemTypeNames(prefix, n)
    decreases n
  {
    if n > 0 {
      ElemPrefix(elems, n - 1, prefix[..n - 1]);
      ElemPrefix(prefix, n - 1, prefix[..n - 1]);
    }
  }

  /** Objects are walked in field order: the names of a concatenation of entries are the names of the parts, in order. */
  lemma {:induction false} FieldTypeNamesAppend(a: seq<(string, Json)>, b: seq<(string, Json)>)
    ensures TypeNames(JObject(a + b)) == TypeNames(JObject(a)) + TypeNames(JObject(b))
    decreases |b|
  {
    if |b| == 0 {
      assert a + b == a;
    } else {
      var b' := b[..|b| - 1];
      FieldTypeNamesAppend(a, b');
      FieldPrefix(a + b, |a + b| - 1, a + b');
      FieldPrefix(b, |b| - 1, b');
    }
  }

  lemma {:induction false} FieldPrefix(fields: seq<(string, Json)>, n: nat, prefix: seq<(string, Json)>)
    requires n <= |fields| && prefix == fields[..n]
    ensures FieldTypeNames(fields, n) == FieldTypeNames(prefix, n)
    decreases n
  {
    if n > 0 {
      FieldPrefix(fields, n - 1, prefix[..n - 1]);
      FieldPrefix(prefix, n - 1, prefix[..n - 1]);
    }
  }

  /**
    An object's names are its entries' contributions in order: an `@type` entry
    gives exactly its own text (however deep its value is), any other entry
    gives what its value holds.
   */
  lemma ObjectEntryNames(key: string, value: Json, rest: seq<(string, Json)>)
    ensures TypeNames(JObject([(key, value)] + rest)) ==
      (if IsTypeKey(key) then [TextValue(value)] else TypeNames(value)) + TypeNames(JObject(rest))
  {
    FieldTypeNamesAppend([(key, value)], rest);
    assert TypeNames(JObject([(key, value)])) == FieldTypeNames([(key, value)], 0) + EntryTypeNames((key, value));
  }

  // ---------------------------------------------------------------------
  // Which entries the walk reaches
  // ---------------------------------------------------------------------

  /** One step down a JSON tree: the `i`-th entry of an object or the `i`-th element of an array. */
  datatype PathStep = EntryStep(i: nat) | ElementStep(i: nat)

  /**
    Independent description of the names: the text of the `@type` entry at the
    end of `path`, when the path steps only through array elements and through
    entries whose key is not `@type`, and its last step picks an `@type` entry.
   */
  function TypeAt(j: Json, path: seq<PathStep>): Option<Option<string>>
    decreases |path|
  {
    if |path| == 0 then None
    else match path[0]
      case ElementStep(i) =>
        if j.JArray? && i < |j.elems| then TypeAt(j.elems[i], path[1..]) else None
      case EntryStep(i) =>
        if j.JObject? && i < |j.fields| then
          if IsTypeKey(j.fields[i].0) then (if |path| == 1 then Some(TextValue(j.fields[i].1)) else None)
          else TypeAt(j.fields[i].1, path[1..])
        else None
  }

  lemma {:induction false} FieldNamesHave(fields: seq<(string, Json)>, n: nat, m: nat, x: Option<string>)
    requires m < n <= |fields| && x in EntryTypeNames(fields[m])
    ensures x in FieldTypeNames(fields, n)
    decreases n
  {
    if m < n - 1 {
      FieldNamesHave(fields, n - 1, m, x);
    }
  }

  lemma {:induction false} ElemNamesHave(elems: seq<Json>, n: nat, m: nat, x: Option<string>)
    requires m < n <= |elems| && x in TypeNames(elems[m])
    ensures x in ElemTypeNames(elems, n)
    decreases n
  {
    if m < n - 1 {
      ElemNamesHave(elems, n - 1, m, x);
    }
  }

  /** Every `@type` entry reachable without passing through an `@type` value is reported. */
  lemma {:induction false} ReachedTypeReported(j: Json, path: seq<PathStep>)
    requires TypeAt(j, path).Some?
    ensures TypeAt(j, path).value in TypeNames(j)
    decreases |path|
  {
    var x := TypeAt(j, path).value;
    match path[0]
    case ElementStep(i) =>
      ReachedTypeReported(j.elems[i], path[1..]);
      ElemNamesHave(j.elems, |j.elems|, i, x);
    case EntryStep(i) =>
      if !IsTypeKey(j.fields[i].0) {
        ReachedTypeReported(j.fields[i].1, path[1..]);
      }
      FieldNamesHave(j.fields, |j.fields|, i, x);
  }

  /** A name of the first `n` entries comes from one of them. */
  lemma {:induction false} FieldNameSource(fields: seq<(string, Json)>, n: nat, x: Option<string>) returns (m: nat)
    requires n <= |fields| && x in FieldTypeNames(fields, n)
    ensures m < n && x in EntryTypeNames(fields[m])
    decreases n
  {
    if x in EntryTypeNames(fields[n - 1]) {
      m := n - 1;
    } else {
      m := FieldNameSource(fields, n - 1, x);
    }
  }

  /** A name of the first `n` elements comes from one of them. */
  lemma {:induction false} ElemNameSource(elems: seq<Json>, n: nat, x: Option<string>) returns (m: nat)
    requires n <= |elems| && x in ElemTypeNames(elems, n)
    ensures m < n && x in TypeNames(elems[m])
    decreases n
  {
    if x in TypeNames(elems[n - 1]) {
      m := n - 1;
    } else {
      m := ElemNameSource(elems, n - 1, x);
    }
  }

  /** Every reported name is the text of a reachable `@type` entry, found by the returned path. */
  lemma {:induction false} ReportedTypeReached(j: Json, x: Option<string>) returns (path: seq<PathStep>)
    requires x in TypeNames(j)
    ensures TypeAt(j, path) == Some(x)
    decreases j
  {
    match j
    case JObject(fields) =>
      var m := FieldNameSource(fields, |fields|, x);
      assert fields[m] in fields;
      if IsTypeKey(fields[m].0) {
        path := [EntryStep(m)];
      } else {
        var rest := ReportedTypeReached(fields[m].1, x);
        path := [EntryStep(m)] + rest;
        assert path[1..] == rest;
      }
    case JArray(elems) =>
      var m := ElemNameSource(elems, |elems|, x);
      assert elems[m] in elems;
      var rest := ReportedTypeReached(elems[m], x);
      path := [ElementStep(m)] + rest;
      assert path[1..] == rest;
  }

  /**
    The walk's names, as a set, are exactly the texts of the `@type` entries
    reachable through array elements and non-`@type` entries.
   */
  lemma TypeNamesAreReachedTypes(j: Json, x: Option<string>)
    ensures x in TypeNames(j) <==> exists path :: TypeAt(j, path) == Some(x)
  {
    if x in TypeNames(j) {
      var path := ReportedTypeReached(j, x);
    }
    if exists path :: TypeAt(j, path) == Some(x) {
      var path :| TypeAt(j, path) == Some(x);
      ReachedTypeReported(j, path);
    }
  }
}

=== FILE: wrappers.dfy ===
/** Java's nullable references as an `Option`, and `Map.get` returning one. */
module Wrappers {

  /** A Java reference that may be null: `None` is null. */
  datatype Option<+T> = None | Some(value: T)

  /** Java's `Map.get`/`Attributes.getValue` on a map: null when the key is absent. */
  function Get<K, V>(m: map<K, V>, k: K): (r: Option<V>)
    ensures r.Some? <==> k in m
    ensures r.Some? ==> r.value == m[k]
  {
    if k in m then Some(m[k]) else None
  }
}
